=== FILE: README.md ===
# Vessel-Vision pipeline core in Dafny

Vessel-Vision counts boats in coastal webcam images.  This project models
the deterministic core of its processing scripts and proves properties of
that model:

- **Day/night segmentation** (`day_night.py`).  The capture instant is taken
  from the image filename.  A nearby ambient-light reading from an optional
  sensor log decides the segment on its own.  Without one, the segment
  follows the half-open interval `sunrise <= t < sunset` for a configured
  site or for the three-site average.
- **Parallel batched detection** (`gaussian_parallel.py`).  The blob
  detector runs per image, and a failure is captured in the record.  Every
  batch is committed to the workbook at once: the file is created with a
  header, or rows are appended after `max_row`.  A final pass turns
  existing image paths into "View Image" links.
- **Sequential detection** (`laplacian_gaussian.py`).  It processes the
  first 5000 grey images, batched by ceiling division, with no failure
  isolation.  The workbook is written once, and a final pass links every
  cell unconditionally.
- **Sample export** (`random_sample_gaussian.py`).  It draws at most 100
  distinct data rows with a fixed seed and copies them in ascending order,
  with the header, into a new sheet.  Links are kept.
- **Evaluation metrics** (`compute_MAE.py`).  These are the difference
  column, the mean absolute error, the exact-count rate and the
  over/undercount tallies.

## Modules

| file | module | contents |
|---|---|---|
| `results.dfy` | `Results` | `Option`, `Result` (an exception that aborts the run), `Every` |
| `filters.dfy` | `Filters` | the in-order positions at which a condition holds, and the reading loop that keeps what each element yields |
| `timestamps.dfy` | `Timestamps` | calendar validity, epoch microseconds, the filename stamp and its parser, `isoformat()` |
| `sun.dfy` | `Sun` | the site table, per-site sunrise/sunset with the sunset correction, the three-site average |
| `priority.dfy` | `Priority` | "first candidate that succeeds", the pattern behind the loader's header and format choice |
| `sensor_log.dfy` | `SensorLog` | the light-sensor dict (insertion order, overwrite), the CSV loader, the nearest-reading lookup |
| `segmentation.dfy` | `Segmentation` | `determine_segment` and `process_images` |
| `sheets.dfy` | `Sheets` | worksheets of cells with value, hyperlink and font; openpyxl's `max_row`/`max_column` |
| `detection.dfy` | `Detection` | the per-image record: coordinates text, annotated-image path, the error record |
| `batching.dfy` | `Batching` | stepped-range batches and ceiling-division batches, their partition law and their equality |
| `parallel_pipeline.dfy` | `ParallelPipeline` | the checkpointed batch loop, `append_to_excel`, the conditional link pass |
| `sequential_pipeline.dfy` | `SequentialPipeline` | the all-or-nothing batch loop, the single write, the unconditional link pass |
| `sampling.dfy` | `Sampling` | candidate rows, clamped size, sorted draw, header and row copy |
| `metrics.dfy` | `Metrics` | difference, MAE, exact accuracy, over/undercount |

## Representation

- **Instants.** An instant is an integer count of microseconds since the
  Unix epoch, in UTC.  Microseconds are the resolution of Python's
  `datetime`, and filename stamps carry milliseconds, so whole seconds would
  move the tolerance and sunrise/sunset boundaries.
- **Oracles.** Computations the scripts hand to libraries are function-typed
  parameters, with no properties assumed beyond their types:
  - `astral.sun`: `SunOracle`, taking a UTC day number and a site;
  - `strptime`: `Strptime`, called only for the sensor-log formats.  The
    filename stamp is matched and read in the model itself, over ASCII
    digits (see "Left out");
  - `float()`;
  - image reading plus `blob_log` plus saving the figure: `Detector`, which
    yields the blobs or the exception's message;
  - `{:.1f}` formatting;
  - `os.path.abspath`;
  - `os.path.exists`;
  - `random.sample` after `random.seed(42)`: a `Draw`, on which the sampler
    requires what `random.sample` promises (`k` distinct members of the
    population).
  Because `Draw` is a function of (seed, population, k), the sample of a
  given workbook is the same on every run by construction.
- **Exceptions.** An exception that aborts a script is `Err`, and the error
  path is modelled wherever the scripts have one.  Examples: a stamp with
  month 13; a non-numeric light value; an unknown location key; a detector
  failure in the sequential script; `load_workbook` of a workbook that was
  never written; appending to a workbook without a `Sheet1` sheet.
- **Sensor log.** The dict of sensor readings is a sequence in insertion
  order.  A repeated instant keeps its first slot and takes the last value,
  as a Python dict does.
- **Sheets.** A sheet is a title plus rows of cells, numbered from 1.
  Reading outside the stored cells gives an empty cell.  An empty sheet
  reports `max_row == max_column == 1`, as openpyxl does.  A workbook is
  its one sheet, so `writer.sheets["Sheet1"]` succeeds exactly when that
  sheet's title is `Sheet1`; workbooks with several sheets are not
  modelled.
- **Joblib.** The worker pool is an ordered sequential map, because joblib
  returns results in dispatch order.
- **Plot labels in `compute_MAE.py`.** The difference column is
  `Boat_Checked - boat_count`, so an "overcount" is a row where the hand
  count exceeds the detector's count.  The script's plots label the same
  quantity "Predicted - True" (lines 48, 38-39).  The model follows the
  computation, not the labels.
- **Sensor rows.** `float()` is called as soon as a light header is found
  (`day_night.py:73-74`), so a non-numeric or missing light value raises
  and aborts the load.  A row is skipped without raising when it has no
  accepted timestamp header, an empty or missing timestamp cell, or no
  accepted light header (`day_night.py:71-75`), and when its timestamp
  matches none of the four formats (`day_night.py:76-82`).
- **Sunset correction.** One day is added to the sunset once, when it
  precedes sunrise (`day_night.py:42-43`).  The resulting interval runs
  forward only when the raw sunset is less than a day before sunrise.
- **Average sun times.** The model averages integer microseconds; the
  rounding is noted under "Left out".

## Model

| member | source | states |
|---|---|---|
| Filters.PositionsFrom | py_scripts/gaussian_parallel.py:38 | the positions from `i` on at which the condition holds: each in range and satisfying it, strictly increasing, and none missing |
| Filters.Positions | py_scripts/gaussian_parallel.py:38 | every position at which the condition holds, each once, in increasing order |
| Filters.Gather | py_scripts/day_night.py:69-82 | the reading loop succeeds exactly when no element raises, and keeps at most one value per element |
| Filters.GatherPositions | py_scripts/day_night.py:69-82 | a successful loop keeps, in order, exactly the values of the elements that yield one: value `k` comes from the `k`-th such element |
| Timestamps.DaysInMonth | py_scripts/day_night.py:91 | month lengths `strptime` accepts: 28 to 31 days, February has 29 exactly in leap years |
| Timestamps.UtcDayOfCivil | py_scripts/day_night.py:40 | `dt.date()` of a valid UTC capture time is its own calendar date: the time of day never spills into another day |
| Timestamps.FindMatch | py_scripts/day_night.py:89-90 | `re.search` of `_\d{8}T\d{6}\.\d{3}Z\.`: the returned position matches and no earlier one does; `None` exactly when no position matches |
| Timestamps.CompactText | py_scripts/day_night.py:91 | the `%Y%m%dT%H%M%S.%fZ` text of a valid millisecond time has the 20 characters the pattern's group captures |
| Timestamps.ParseTimestampFromFilename | py_scripts/day_night.py:86-93 | `None` exactly when the pattern occurs nowhere in the name; with a match the result is an error or a valid calendar time with whole milliseconds, never `None` |
| Timestamps.CompactRoundTrip | py_scripts/day_night.py:91 | reading the fields of a rendered stamp with `%Y%m%dT%H%M%S.%fZ` gives back the time |
| Timestamps.ParseFilenameRoundTrip | py_scripts/day_night.py:86-93 | any valid millisecond-precision time written as `_<stamp>.` at the start of a name is recovered exactly, read as UTC |
| Timestamps.MatchesAfterPrefix | py_scripts/day_night.py:89 | whether the pattern matches after a prefix depends only on the text after it |
| Timestamps.ParsePrefixedStamp | py_scripts/day_night.py:86-93 | a valid millisecond-precision time written as `_<stamp>.` after any prefix in which no match starts is recovered exactly |
| Timestamps.ParseStampAfterPlainPrefix | py_scripts/day_night.py:86-93 | a prefix without an underscore never hides the stamp: the time after it is recovered exactly |
| Timestamps.ParsedIsLeftmostStamp | py_scripts/day_night.py:89-91 | every time the parser returns is the leftmost stamp in the name, rendered back character for character |
| Timestamps.CompactTextOfFields | py_scripts/day_night.py:91 | a stamp-shaped group whose fields form a valid time renders back to itself |
| Timestamps.ParseDigits | py_scripts/day_night.py:91 | a zero-padded number of fixed width reads back as the number |
| Timestamps.DigitsOfParse | py_scripts/day_night.py:91 | a digit string is the zero-padded rendering of its own value at its own width |
| Timestamps.IsoFormat | py_scripts/day_night.py:129 | `isoformat()` of a UTC time: 25 characters when the microseconds are zero, 32 otherwise, starting with `YYYY-MM-DDTHH:MM:SS` and ending with `+00:00` |
| Timestamps.IsoRoundTrip | py_scripts/day_night.py:129 | the `timestamp_utc` text determines the capture time: an independent reader gives the time back |
| Sun.SiteOfKey | py_scripts/day_night.py:29-35 | the site table lookup: a found site has that key; an unknown key matches no site (the `KeyError`) |
| Sun.GetSunriseSunset | py_scripts/day_night.py:37-44 | sunrise is the raw sunrise of the UTC date; sunset is the raw sunset, plus one day exactly when the raw sunset precedes sunrise; afterwards sunrise <= sunset whenever the raw times are less than a day out of order |
| Sun.Mean3 | py_scripts/day_night.py:53-54 | the mean of three instants rounded down: three times it is at most the sum and more than the sum minus 3; it lies between the minimum and maximum and equals the common value when all agree |
| Sun.GetAverageSunriseSunset | py_scripts/day_night.py:46-58 | the averaged sunrise and sunset are each the rounded-down mean of the three sites' values: three times the result is at most their sum and within 3 of it; each lies within the sites' range; if every site has sunrise <= sunset, so does the average |
| Priority.FirstSuccess | py_scripts/day_night.py:71-82 | the chosen candidate succeeds and every earlier candidate fails; `None` exactly when all fail |
| Priority.FirstSuccessUnique | py_scripts/day_night.py:71-82 | any successful candidate preceded only by failures is the one chosen |
| SensorLog.Store | py_scripts/day_night.py:80 | `lux_data[dt] = v`: a new instant is appended, an existing one keeps its slot, other entries are unchanged, and the instant then maps to `v` |
| SensorLog.StoreDistinct | py_scripts/day_night.py:80 | assignment keeps the dict's instants distinct |
| SensorLog.BuildHasTime | py_scripts/day_night.py:69-82 | the built dict has an instant exactly when some loaded reading does |
| SensorLog.BuildValues | py_scripts/day_night.py:80 | a duplicated instant keeps the value of its last reading |
| SensorLog.BuildOrder | py_scripts/day_night.py:80 | entries are ordered by the first reading of their instant (insertion order survives overwrites) |
| SensorLog.BuildSemantics | py_scripts/day_night.py:69-82 | the dict has one entry per distinct instant, holding the last value, in first-occurrence order |
| SensorLog.Column | py_scripts/day_night.py:71-74 | the cell under the first accepted header present in the row; `None` exactly when none is present |
| SensorLog.ParseSensorTime | py_scripts/day_night.py:76-82 | the instant of the first of the four formats that parses; `None` exactly when none does |
| SensorLog.ReadRow | py_scripts/day_night.py:70-82 | a present light column whose text `float()` rejects (or a missing cell) raises; a row is a reading exactly when it has a non-empty timestamp, a light value and a parsable time; the reading carries the first-format instant and the converted value |
| SensorLog.ReadRows | py_scripts/day_night.py:69-82 | the loop succeeds exactly when no row raises, and yields at most one reading per row |
| SensorLog.ReadRowsInOrder | py_scripts/day_night.py:69-82 | the readings are those of the rows that yield one, each once and in file order: reading `k` is the one read from the `k`-th such row |
| SensorLog.LoadLuxData | py_scripts/day_night.py:60-84 | a missing file is an empty dict; otherwise it fails exactly when a row raises, and yields the dict built from the rows' readings, whose instants are distinct |
| SensorLog.Scan | py_scripts/day_night.py:97-102 | the loop keeps the reading within tolerance that is strictly nearer than every earlier one and no farther than any later one |
| SensorLog.GetLuxReading | py_scripts/day_night.py:95-103 | `(None, None)` exactly when no reading lies within the tolerance (an empty log included); otherwise the lux and the distance of the chosen reading |
| SensorLog.ChosenUnique | py_scripts/day_night.py:99-102 | the chosen reading is unique |
| SensorLog.ToleranceBoundary | py_scripts/day_night.py:100 | a reading exactly at the tolerance distance is accepted; one a microsecond farther is not |
| SensorLog.TieGoesToFirst | py_scripts/day_night.py:100 | of two equally near readings, the earlier entry wins |
| Segmentation.SunTimesFor | py_scripts/day_night.py:109-110 | `"average"` takes the three-site average, a site key takes that site's times, any other key raises |
| Segmentation.DetermineSegment | py_scripts/day_night.py:105-111 | with a reading: day iff lux >= threshold, by sensor; without: day iff sunrise <= t < sunset, by time, failing only on an unknown location |
| Segmentation.SensorPrecedence | py_scripts/day_night.py:106-108 | once a reading lies within the tolerance, neither the location key nor the sun times change the decision |
| Segmentation.SunriseIsDaySunsetIsNight | py_scripts/day_night.py:109-111 | without a nearby reading the sunrise instant is day and the sunset instant is night, for every site |
| Segmentation.SensorExample | py_scripts/day_night.py:105-108 | 10 lux sixty seconds before the capture, threshold 50: night by the sensor |
| Segmentation.StampedNames | py_scripts/day_night.py:123-127 | the names kept by the loop carry a valid stamp |
| Segmentation.StampedNamesMembers | py_scripts/day_night.py:123-127 | the kept names are exactly the listed names that carry a stamp |
| Segmentation.Classify | py_scripts/day_night.py:128-129 | a record carries the name, an ISO text that reads back as the capture time, and exactly the segment and method `determine_segment` gives |
| Segmentation.ProcessName | py_scripts/day_night.py:124-129 | it succeeds exactly when the stamp, if any, is a valid date and `determine_segment` does not raise for it; then an unstamped name gives no record and a stamped one exactly one record under its own name |
| Segmentation.ProcessNames | py_scripts/day_night.py:123-130 | it succeeds exactly when no listed name raises; then the records' filenames are the stamped names in listing order, and no stamp in the listing was invalid |
| Segmentation.ProcessImages | py_scripts/day_night.py:116-130 | a missing directory gives no records; otherwise it succeeds exactly when no listed name raises, with the records of the stamped names in listing order |
| Segmentation.ProcessNameFaithful | py_scripts/day_night.py:124-129 | the record of a name carries that name's own capture time and decision |
| Segmentation.EachImageOnce | py_scripts/day_night.py:123-130 | every output record carries its image's own capture time and the decision of `determine_segment` for it |
| Sheets.MaxRow | py_scripts/gaussian_parallel.py:101 | `max_row` is at least 1 and at least the number of stored rows |
| Sheets.MaxColumn | py_scripts/random_sample_gaussian.py:22 | `max_column` is at least 1 and at least every row's width |
| Sheets.SetCell | py_scripts/gaussian_parallel.py:146-151 | assigning a cell changes that cell only, padding a short row with empty cells |
| Detection.Coordinates | py_scripts/gaussian_parallel.py:76 | the coordinates text is empty exactly when there are no blobs |
| Detection.SplitJoin | py_scripts/gaussian_parallel.py:76 | joining `;`-free entries with `"; "` and splitting again gives the entries back |
| Detection.CoordinatesListBlobs | py_scripts/gaussian_parallel.py:76 | the text lists one `(x, y)` entry per blob in detector order, x and y swapped from `(y, x, sigma)` |
| Detection.Stem | py_scripts/gaussian_parallel.py:72 | `os.path.splitext(p)[0]`: the last extension is removed exactly when a non-dot character precedes its dot in the last path component (so `.hidden` is kept whole); what is removed starts at a dot and holds no further dot or slash |
| Detection.SuccessRecord | py_scripts/gaussian_parallel.py:78-83 | a success record names the image, counts its blobs, points to the annotated image, and has empty coordinates exactly when no blob was found |
| Detection.ProcessSingleImage | py_scripts/gaussian_parallel.py:46-91 | the record always names the image; a failure gives 0 boats, no image and `"Error: "` plus the message; a success gives the blob count, the artifact path and the coordinates |
| Batching.Slice | py_scripts/gaussian_parallel.py:110 | `xs[lo:hi]` clamped at the end: its length and its elements |
| Batching.StepBatchesPartition | py_scripts/gaussian_parallel.py:109-110 | the stepped batches from `start` concatenate to the rest of the list, all full but the last, none empty |
| Batching.RangeBatchesPartition | py_scripts/gaussian_parallel.py:109-110 | the batches of `range(0, n, BATCH_SIZE)` concatenate back to the list, all full but the last, none empty |
| Batching.StepBatchesCount | py_scripts/gaussian_parallel.py:109 | the stepped range yields the ceiling of the remaining length over the size many batches |
| Batching.StepBatchesShape | py_scripts/gaussian_parallel.py:109-110 | batch `k` is the slice starting at `start + k * size` |
| Batching.CeilBatches | py_scripts/laplacian_gaussian.py:44-47 | there are `(n + size - 1) // size` batches |
| Batching.RangeIsCeil | py_scripts/laplacian_gaussian.py:44-47 | the ceiling-division batches are exactly the stepped-range batches |
| Batching.CeilBatchesPartition | py_scripts/laplacian_gaussian.py:44-47 | the ceiling-division slices partition the list with no overlap or omission, all full but the last |
| ParallelPipeline.GreyImages | py_scripts/gaussian_parallel.py:38 | the image list is no longer than the table and empty exactly when no row is grey |
| ParallelPipeline.GreyImagesMembers | py_scripts/gaussian_parallel.py:38 | the list holds exactly the images of the rows marked grey |
| ParallelPipeline.GreyImagesFrom | py_scripts/gaussian_parallel.py:38 | from any row on, the list is the images of the grey rows at the increasing positions from that row |
| ParallelPipeline.GreyImagesInOrder | py_scripts/gaussian_parallel.py:38 | the list is the grey rows' images in table order, one per grey row: image `k` is that of the `k`-th grey row |
| ParallelPipeline.ProcessBatch | py_scripts/gaussian_parallel.py:114-116 | one result per input name, in order, each named after its input |
| ParallelPipeline.AppendToExcel | py_scripts/gaussian_parallel.py:96-102 | a missing store is created as header plus batch; an existing one raises exactly when it has no `Sheet1` sheet, and otherwise keeps its rows and title and gets the batch, with no header, right after `max_row` |
| ParallelPipeline.AppendToExisting | py_scripts/gaussian_parallel.py:99-102 | appending to a non-empty `Sheet1` store adds the batch rows directly after the last row; any other store raises |
| ParallelPipeline.CommitToSheet1 | py_scripts/gaussian_parallel.py:109-120 | one loop step on an existing `Sheet1` store appends that batch's rows and continues |
| ParallelPipeline.RunBatches | py_scripts/gaussian_parallel.py:109-120 | the loop raises exactly when there is a batch and the existing store has no `Sheet1` sheet; otherwise a `Sheet1` store exists after it whenever there was a batch |
| ParallelPipeline.AllResults | py_scripts/gaussian_parallel.py:114-119 | one result per image of all batches |
| ParallelPipeline.ResumeIsSplitRun | py_scripts/gaussian_parallel.py:109-120 | committing the first `k` batches, stopping, and resuming from the saved store gives the store of one full run; a run that raised in the first `k` batches raises the same error |
| ParallelPipeline.RunFromSheet1 | py_scripts/gaussian_parallel.py:109-120 | an existing `Sheet1` store keeps its rows, followed by every later batch's rows in order |
| ParallelPipeline.RunFromExisting | py_scripts/gaussian_parallel.py:109-120 | an existing `Sheet1` store keeps its rows, followed by every later batch's rows in order; another store raises `KeyError` at the first batch |
| ParallelPipeline.AllResultsFollowInput | py_scripts/gaussian_parallel.py:109-120 | result `k` is the record of the `k`-th image of the concatenated batches |
| ParallelPipeline.FreshRun | py_scripts/gaussian_parallel.py:96-120 | a run without a store ends with the header followed by every result |
| ParallelPipeline.StoreAfterLoop | py_scripts/gaussian_parallel.py:107-120 | after the loop over a non-empty list the store holds the header and `1 + n` rows, row `k + 2` being the record of image `k` |
| ParallelPipeline.FindColumn | py_scripts/gaussian_parallel.py:138-142 | the first header cell reading the name, counted from 1; `None` when no cell does |
| ParallelPipeline.LinkColumnOfHeader | py_scripts/gaussian_parallel.py:138-142 | in the header pandas writes, `detected_image` is column 3 |
| ParallelPipeline.RewriteColumn | py_scripts/gaussian_parallel.py:144-151 | rows 2 to `max_row` get the rewritten cell in the column; the header and row count are kept |
| ParallelPipeline.FinishParallel | py_scripts/gaussian_parallel.py:135-153 | without a `detected_image` header the workbook is unchanged; the header row and the row count are always kept |
| ParallelPipeline.FinishParallelCells | py_scripts/gaussian_parallel.py:144-151 | a data cell changes only in the first `detected_image` column and only when it is a non-empty existing path, becoming "View Image" linking to that path; all other cells are untouched |
| ParallelPipeline.LinkIfExistsIdempotent | py_scripts/gaussian_parallel.py:148-151 | rewriting a cell twice equals rewriting it once when "View Image" is not an existing path |
| ParallelPipeline.FinishParallelIdempotent | py_scripts/gaussian_parallel.py:144-151 | re-running the pass changes nothing when "View Image" is not an existing path |
| ParallelPipeline.RunParallel | py_scripts/gaussian_parallel.py:96-153 | the script fails exactly when there was no grey image to write and no workbook existed, or when there was one and the existing workbook has no `Sheet1` sheet |
| SequentialPipeline.Truncate | py_scripts/laplacian_gaussian.py:36 | the first `min(n, 5000)` images, in CSV order |
| SequentialPipeline.DetectOne | py_scripts/laplacian_gaussian.py:53-91 | an image fails exactly when the detector raises; otherwise its record is the success record for `./output/` |
| SequentialPipeline.NoneFailIffNoneRaise | py_scripts/laplacian_gaussian.py:56-68 | the loop body fails on exactly the images the detector raises on |
| SequentialPipeline.Chain | py_scripts/laplacian_gaussian.py:94 | two aborting stages: success iff both succeed, then the concatenation; the first error wins |
| SequentialPipeline.DetectBatch | py_scripts/laplacian_gaussian.py:51-91 | a batch succeeds exactly when no image fails, with one record per image |
| SequentialPipeline.DetectBatchRecords | py_scripts/laplacian_gaussian.py:53-91 | record `k` of a batch is the record of image `k` |
| SequentialPipeline.DetectBatchAppend | py_scripts/laplacian_gaussian.py:94 | detecting a concatenation is detecting its parts in order |
| SequentialPipeline.AccumulateIsFlat | py_scripts/laplacian_gaussian.py:46-94 | the batch loop gives the same records, order and first failure as one pass over the concatenated batches |
| SequentialPipeline.BatchedIsFlat | py_scripts/laplacian_gaussian.py:44-94 | batching by 1000 changes nothing about the outcome |
| SequentialPipeline.AccumulateFollowsInput | py_scripts/laplacian_gaussian.py:46-94 | a run that was not aborted yields exactly one record per image, in input order, each its success record |
| SequentialPipeline.WriteStore | py_scripts/laplacian_gaussian.py:99-100 | the workbook is written once: empty without results, else the header and one row per record in order |
| SequentialPipeline.AlwaysLink | py_scripts/laplacian_gaussian.py:117-121 | the cell becomes "View Image" in link style, linking to its previous value |
| SequentialPipeline.FinishSequential | py_scripts/laplacian_gaussian.py:105-123 | without a `detected_image` header the workbook is unchanged; the header row and the row count are always kept |
| SequentialPipeline.FinishSequentialCells | py_scripts/laplacian_gaussian.py:115-121 | every data cell of the column becomes "View Image" linking to its old value, whatever that value was; other columns are untouched |
| SequentialPipeline.FinishSequentialTwiceRetargets | py_scripts/laplacian_gaussian.py:115-121 | the pass is not idempotent: a second run makes every data link point to "View Image" |
| SequentialPipeline.Workbook | py_scripts/laplacian_gaussian.py:39-123 | the run succeeds exactly when the detector raises on no image, and leaves no rows or `1 + n` rows |
| SequentialPipeline.RunSequential | py_scripts/laplacian_gaussian.py:34-123 | the script fails exactly when one of the first 5000 grey images makes the detector raise |
| SequentialPipeline.FinishedStoreRow | py_scripts/laplacian_gaussian.py:99-121 | row `k + 2` of the finished workbook starts with image `k` and links to its annotated copy |
| SequentialPipeline.WorkbookIsFinishedStore | py_scripts/laplacian_gaussian.py:99-123 | a successful run's workbook is the finished store of one pass over the images |
| SequentialPipeline.WorkbookLinks | py_scripts/laplacian_gaussian.py:99-121 | in the final workbook row `k + 2` names image `k` and its `detected_image` cell is "View Image" linking to `abspath("./output/<stem>_detected.jpg")` |
| Sampling.AvailableRows | py_scripts/random_sample_gaussian.py:25 | the candidates are exactly rows 2 to `max_row`; the header is never a candidate |
| Sampling.SampleCount | py_scripts/random_sample_gaussian.py:26 | the sample size is `min(100, max_row - 1)`: at most both, and equal to one of them |
| Sampling.Insert | py_scripts/random_sample_gaussian.py:29 | inserting into a sorted list keeps it sorted and adds exactly the element |
| Sampling.Sort | py_scripts/random_sample_gaussian.py:29 | `sorted` returns an ascending permutation of its input |
| Sampling.SortedUnique | py_scripts/random_sample_gaussian.py:29 | two ascending lists with the same elements are equal |
| Sampling.SortDistinctAscending | py_scripts/random_sample_gaussian.py:29 | sorting distinct row numbers leaves them strictly ascending |
| Sampling.PickedAreDataRows | py_scripts/random_sample_gaussian.py:25-29 | the sorted draw names data rows between 2 and `max_row` only, strictly ascending |
| Sampling.HeaderCopy | py_scripts/random_sample_gaussian.py:39-47 | the header copy keeps the value and font and carries no link |
| Sampling.DataCopy | py_scripts/random_sample_gaussian.py:55-74 | a cell keeps a link exactly when it had a non-empty target: then the same target in link style, its value if truthy, else "View Image"; any other cell keeps value and font without a link |
| Sampling.CopyRow | py_scripts/random_sample_gaussian.py:52-74 | columns 1 to `max_col` of the source row, each through the copy rule |
| Sampling.Export | py_scripts/random_sample_gaussian.py:36-74 | title plus `_sample`; the header copy, then one copied row per picked row in the given order, every row `max_col` wide |
| Sampling.SampleWorkbook | py_scripts/random_sample_gaussian.py:21-74 | the output has `sample_size + 1` rows and the suffixed title |
| Sampling.SampleRowsInOrder | py_scripts/random_sample_gaussian.py:52-74 | output row `i + 2` is the copy of the `i`-th smallest drawn row, a data row of the source |
| Sampling.OrderOfDrawIrrelevant | py_scripts/random_sample_gaussian.py:28-29 | two draws of the same rows in any order give the same workbook |
| Sampling.DataCopyIdempotent | py_scripts/random_sample_gaussian.py:59-66 | copying a copied cell again changes nothing, so a sample of a sample keeps every link |
| Metrics.Difference | py_scripts/compute_MAE.py:16 | `Boat_Checked - boat_count`: NaN exactly when unchecked, otherwise the amount that brings the detector's count to the checked one |
| Metrics.WithDifference | py_scripts/compute_MAE.py:16 | every row gets its difference and keeps its counts |
| Metrics.WithDifferenceIdempotent | py_scripts/compute_MAE.py:30 | recomputing the column gives the same frame |
| Metrics.MeanAbsoluteError | py_scripts/compute_MAE.py:17 | NaN exactly when no row has a difference; otherwise non-negative |
| Metrics.ExactAccuracy | py_scripts/compute_MAE.py:21 | NaN exactly on an empty frame; otherwise a fraction in [0, 1] |
| Metrics.CountWhere | py_scripts/compute_MAE.py:25-26 | a tally never exceeds the number of rows |
| Metrics.CountsPartition | py_scripts/compute_MAE.py:25-26 | over, under and exact counts add up to the number of rows with a difference |
| Metrics.CountsCoverRows | py_scripts/compute_MAE.py:21-26 | over + under + exact + unchecked rows = all rows |
| Metrics.AbsSumZero | py_scripts/compute_MAE.py:17 | the absolute differences sum to zero exactly when every present difference is zero |
| Metrics.ExactCountAll | py_scripts/compute_MAE.py:17-21 | the exact count equals the present count exactly when every present difference is zero |
| Metrics.MaeZeroIffAllExact | py_scripts/compute_MAE.py:17-21 | with a checked row, the MAE is 0 exactly when every checked row agrees with the detector, and then the exact count is the checked count |

## Left out

- **Files.** Image files, CSV/Excel reading and writing, and directory
  listing are not modelled.  A listing is a sequence of names, a CSV is a
  sequence of rows, and a workbook is a `Sheet` or `None`.
- **Globs.** The glob order of `process_images` (`.jpg`, then `.jpeg`, then
  `.png`) is not modelled: the listing is given.
- **Output and other side effects.** Not modelled: `print`, `tqdm`,
  `gc.collect`, `plt.close`, `os.makedirs`, `save_results_to_csv`, `main`,
  and the directory-probing cell at the end of `day_night.py`.
- **Plotting.** The seaborn plots of `compute_MAE.py` are not modelled.
  They do not change the computed metrics.
- **Parallelism.** joblib's processes are not modelled: results come back
  in dispatch order, so the pool is a sequential map.
- **Detector.** The detector (`io.imread`, `rgb2gray`, cropping, `blob_log`,
  the figure) is an oracle, so the crop percentages and sigma constants do
  not appear.
- **Sun.** Astral's polar-day exceptions are not modelled: `SunOracle` is
  total.
- Sun.GetAverageSunriseSunset: averages integer microseconds and rounds
  down.  The script averages float seconds, and `fromtimestamp` rounds to
  the nearest microsecond.
- Timestamps.ParseTimestampFromFilename: reads ASCII digits only.  Python's
  `\d` and `strptime`'s `%Y`/`%m`/`%d`/`%H`/`%M`/`%S` also accept other
  Unicode decimal digits, while `%f` accepts only ASCII.  So a stamp with
  such digits in its date or clock is classified by the script, or makes it
  raise when they are in the milliseconds; the model skips that name, or
  reads a later ASCII stamp.
- **Light values.** Light values are reals, so a `nan` reading, which
  compares false with the threshold, is not modelled.
- SensorLog.GetLuxReading: returns the distance in microseconds rather than
  float seconds.  Comparisons with the tolerance are exact.
- **Hyperlinks.** A hyperlink is its target string.  A numeric value
  assigned as a link target in `laplacian_gaussian.py` gives no link in the
  model.  The `detected_image` column only ever holds path text or nothing.
- **Fonts.** The `try/except` around font copies in
  `random_sample_gaussian.py` never fires in the model: a copied font is
  always kept.
- **CSV cells.** pandas' reading of the `grey` column is not modelled: the
  rows are given as `(image, grey)` pairs.  `Boat_Checked` is read as an
  integer or NaN.
- ParallelPipeline.RunParallel: states only when the script fails.  The
  content of its workbook is stated by `StoreAfterLoop` and
  `FinishParallelCells`.

=== FILE: batching.dfy ===
/** Cutting the image list into batches.

    `gaussian_parallel.py` steps a start index with `range(0, n, BATCH_SIZE)`
    and slices `[i:i + BATCH_SIZE]`; `laplacian_gaussian.py` computes
    `num_batches = ceil(n / BATCH_SIZE)` and slices
    `[b * BATCH_SIZE:(b + 1) * BATCH_SIZE]`.  Both are modelled, both are
    shown to partition the list, and they are shown to be the same batches.
 */
module Batching {

  function Min(a: int, b: int): int {
    if a <= b then a else b
  }

  /** Python's slice `xs[lo:hi]` for `0 <= lo`, clamped at the end. */
  function Slice<T>(xs: seq<T>, lo: nat, hi: nat): (r: seq<T>)
    ensures |r| == if lo < hi && lo < |xs| then Min(hi, |xs|) - lo else 0
    ensures forall k :: 0 <= k < |r| ==> r[k] == xs[lo + k]
  {
    if lo >= |xs| || hi <= lo then [] else xs[lo..Min(hi, |xs|)]
  }

  /** The batches of `for i in range(start, len(xs), size)`. */
  function StepBatches<T>(xs: seq<T>, size: nat, start: nat): seq<seq<T>>
    requires size >= 1
    decreases |xs| - start
  {
    if start >= |xs| then []
    else [Slice(xs, start, start + size)] + StepBatches(xs, size, start + size)
  }

  /** The batches of `gaussian_parallel.py`. */
  function RangeBatches<T>(xs: seq<T>, size: nat): seq<seq<T>>
    requires size >= 1
  {
    StepBatches(xs, size, 0)
  }

  /** `(n + size - 1) // size`, the batch count of `laplacian_gaussian.py`. */
  function NumBatches(n: nat, size: nat): nat
    requires size >= 1
  {
    (n + size - 1) / size
  }

  /** The batches of `laplacian_gaussian.py`. */
  function CeilBatches<T>(xs: seq<T>, size: nat): (r: seq<seq<T>>)
    requires size >= 1
    ensures |r| == NumBatches(|xs|, size)
  {
    seq(NumBatches(|xs|, size), b requires 0 <= b => Slice(xs, b * size, (b + 1) * size))
  }

  function Flatten<T>(bs: seq<seq<T>>): seq<T> {
    if |bs| == 0 then [] else bs[0] + Flatten(bs[1..])
  }

  lemma {:induction false} FlattenAppend<T>(a: seq<seq<T>>, b: seq<seq<T>>)
    ensures Flatten(a + b) == Flatten(a) + Flatten(b)
  {
    if |a| > 0 {
      assert (a + b)[1..] == a[1..] + b;
      FlattenAppend(a[1..], b);
      calc {
        Flatten(a + b);
        (a + b)[0] + Flatten((a + b)[1..]);
        a[0] + (Flatten(a[1..]) + Flatten(b));
        (a[0] + Flatten(a[1..])) + Flatten(b);
      }
    } else {
      assert a + b == b;
    }
  }

  /** Batches are complete except the last, which is non-empty, and
      together they are the list from `start` on. */
  lemma {:induction false} StepBatchesPartition<T>(xs: seq<T>, size: nat, start: nat)
    requires size >= 1 && start <= |xs|
    ensures var bs := StepBatches(xs, size, start);
      && Flatten(bs) == xs[start..]
      && (forall k :: 0 <= k < |bs| - 1 ==> |bs[k]| == size)
      && (forall k :: 0 <= k < |bs| ==> 1 <= |bs[k]| <= size)
    decreases |xs| - start
  {
    if start < |xs| {
      var next := Min(start + size, |xs|);
      StepBatchesPartition(xs, size, next);
      if start + size < |xs| {
        assert StepBatches(xs, size, start + size) == StepBatches(xs, size, next);
      } else {
        assert StepBatches(xs, size, start + size) == [];
      }
      assert xs[start..] == xs[start..next] + xs[next..];
    }
  }

  /** The batch partition law: concatenating the batches in order gives the
      list back, and every batch but the last has exactly `size` items. */
  lemma RangeBatchesPartition<T>(xs: seq<T>, size: nat)
    requires size >= 1
    ensures var bs := RangeBatches(xs, size);
      && Flatten(bs) == xs
      && (forall k :: 0 <= k < |bs| - 1 ==> |bs[k]| == size)
      && (forall k :: 0 <= k < |bs| ==> 1 <= |bs[k]| <= size)
  {
    StepBatchesPartition(xs, size, 0);
    assert xs[0..] == xs;
  }

  lemma DivBetween(m: nat, size: nat, q: nat)
    requires size >= 1 && q * size <= m < (q + 1) * size
    ensures m / size == q
  {
    var z := m / size;
    var r := m % size;
    assert z * size + r == m;
    if z > q {
      assert z >= q + 1;
      MulLe(q + 1, z, size);
    } else if z < q {
      assert z + 1 <= q;
      MulLe(z + 1, q, size);
    }
  }

  lemma MulLe(a: nat, b: nat, c: nat)
    requires a <= b
    ensures a * c <= b * c
  {
  }

  lemma DivShift(m: nat, size: nat, q: nat)
    requires size >= 1
    ensures (q * size + m) / size == q + m / size
  {
    var z := m / size;
    var r := m % size;
    assert q * size + m == (q + z) * size + r;
    DivBetween(q * size + m, size, q + z);
  }

  /** The number of batches from `start` on is the ceiling of what is left
      over the batch size. */
  lemma {:induction false} StepBatchesCount<T>(xs: seq<T>, size: nat, start: nat)
    requires size >= 1
    ensures |StepBatches(xs, size, start)| == if start >= |xs| then 0 else (|xs| - start + size - 1) / size
    decreases |xs| - start
  {
    if start < |xs| {
      StepBatchesCount(xs, size, start + size);
      var m := |xs| - start;
      if start + size >= |xs| {
        DivBetween(m + size - 1, size, 1);
      } else {
        DivShift(m - 1, size, 1);
      }
    }
  }

  lemma NextOffset(start: nat, size: nat, k: nat)
    requires k > 0
    ensures start + size + (k - 1) * size == start + k * size
  {
  }

  /** The batch starting at `start` and every later one, by position. */
  lemma {:induction false} StepBatchesShape<T>(xs: seq<T>, size: nat, start: nat)
    requires size >= 1
    ensures forall k :: 0 <= k < |StepBatches(xs, size, start)| ==>
      StepBatches(xs, size, start)[k] == Slice(xs, start + k * size, start + k * size + size)
    decreases |xs| - start
  {
    if start < |xs| {
      var bs := StepBatches(xs, size, start);
      var rest := StepBatches(xs, size, start + size);
      StepBatchesShape(xs, size, start + size);
      forall k | 0 <= k < |bs|
        ensures bs[k] == Slice(xs, start + k * size, start + k * size + size)
      {
        if k > 0 {
          assert bs[k] == rest[k - 1];
          NextOffset(start, size, k);
        }
      }
    }
  }

  /** Stepping the start index and counting batches by ceiling division
      produce the same batches. */
  lemma RangeIsCeil<T>(xs: seq<T>, size: nat)
    requires size >= 1
    ensures RangeBatches(xs, size) == CeilBatches(xs, size)
  {
    StepBatchesCount(xs, size, 0);
    StepBatchesShape(xs, size, 0);
    var l := RangeBatches(xs, size);
    var r := CeilBatches(xs, size);
    if |xs| == 0 {
      DivBetween(size - 1, size, 0);
    }
    assert |l| == |r|;
    forall k | 0 <= k < |r|
      ensures l[k] == r[k]
    {
      assert (k + 1) * size == k * size + size;
    }
  }

  /** The partition law for the ceiling-division batches. */
  lemma CeilBatchesPartition<T>(xs: seq<T>, size: nat)
    requires size >= 1
    ensures var bs := CeilBatches(xs, size);
      && Flatten(bs) == xs
      && (forall k :: 0 <= k < |bs| - 1 ==> |bs[k]| == size)
      && (forall k :: 0 <= k < |bs| ==> 1 <= |bs[k]| <= size)
  {
    RangeIsCeil(xs, size);
    RangeBatchesPartition(xs, size);
  }
}

=== FILE: detection.dfy ===
/** The per-image step of the boat detection scripts: run the blob
    detector on one image and turn its answer into a result record.

    Reading the image, greyscale conversion, cropping, `blob_log` and saving
    the annotated figure are one oracle, `Detector`, that either yields the
    blobs as `blob_log` rows `(y, x, sigma)` or the message of the exception
    one of those steps raised.  Number formatting (`{v:.1f}`) and
    `os.path.abspath` are oracles too.
 */
module Detection {
  import opened Results

  datatype Blob = Blob(y: real, x: real, sigma: real)

  datatype DetectOutcome = Blobs(blobs: seq<Blob>) | Raised(message: string)

  type Detector = string -> DetectOutcome

  /** `f"{v:.1f}"`. */
  type Render = real -> string

  /** `os.path.abspath`, which depends on the working directory. */
  type AbsPath = string -> string

  /** One row of the detection store. */
  datatype DetectionRecord = DetectionRecord(image: string, boatCount: int,
                                             detectedImage: Option<string>, boatCoordinates: string)

  // ---------------------------------------------------------------------
  // The coordinates column: `"; ".join(f"({x:.1f}, {y:.1f})" ...)`
  // ---------------------------------------------------------------------

  const Separator: string := "; "

  /** `sep.join(parts)`. */
  function Join(parts: seq<string>, sep: string): string {
    if |parts| == 0 then ""
    else if |parts| == 1 then parts[0]
    else parts[0] + sep + Join(parts[1..], sep)
  }

  /** `s.split("; ")`: the pieces between occurrences of the separator. */
  function SplitEntries(s: string): (r: seq<string>)
    ensures |r| >= 1
    decreases |s|
  {
    if |s| == 0 then [""]
    else if |s| >= 2 && s[0] == ';' && s[1] == ' ' then [""] + SplitEntries(s[2..])
    else
      var rest := SplitEntries(s[1..]);
      [[s[0]] + rest[0]] + rest[1..]
  }

  /** A piece that holds no `;` is kept whole by the split. */
  lemma {:induction false} SplitPrefix(p: string, rest: string)
    requires ';' !in p
    ensures SplitEntries(p + Separator + rest) == [p] + SplitEntries(rest)
    decreases |p|
  {
    var s := p + Separator + rest;
    if |p| == 0 {
      assert s[2..] == rest;
    } else {
      assert s[1..] == p[1..] + Separator + rest;
      SplitPrefix(p[1..], rest);
      assert [s[0]] + p[1..] == p;
    }
  }

  lemma {:induction false} SplitLast(p: string)
    requires ';' !in p
    ensures SplitEntries(p) == [p]
    decreases |p|
  {
    if |p| > 0 {
      SplitLast(p[1..]);
      assert [p[0]] + p[1..] == p;
    }
  }

  /** Splitting the joined coordinates at `"; "` gives the entries back,
      provided no entry holds a `;`. */
  lemma {:induction false} SplitJoin(parts: seq<string>)
    requires |parts| >= 1
    requires forall k :: 0 <= k < |parts| ==> ';' !in parts[k]
    ensures SplitEntries(Join(parts, Separator)) == parts
  {
    if |parts| == 1 {
      SplitLast(parts[0]);
    } else {
      SplitJoin(parts[1..]);
      SplitPrefix(parts[0], Join(parts[1..], Separator));
      assert [parts[0]] + parts[1..] == parts;
    }
  }

  /** One `"(x, y)"` entry: `blob_log` rows are `(y, x, sigma)`, the text
      puts `x` first. */
  function CoordEntry(b: Blob, render: Render): string {
    "(" + render(b.x) + ", " + render(b.y) + ")"
  }

  function CoordEntries(blobs: seq<Blob>, render: Render): (r: seq<string>)
    ensures |r| == |blobs|
    ensures forall k :: 0 <= k < |r| ==> r[k] == CoordEntry(blobs[k], render)
  {
    seq(|blobs|, k requires 0 <= k < |blobs| => CoordEntry(blobs[k], render))
  }

  /** The `boat_coordinates` text of a list of blobs. */
  function Coordinates(blobs: seq<Blob>, render: Render): (r: string)
    ensures |blobs| == 0 <==> r == ""
  {
    var entries := CoordEntries(blobs, render);
    if |blobs| > 0 then
      assert |entries[0]| > 0;
      JoinNonEmpty(entries);
      Join(entries, Separator)
    else ""
  }

  lemma {:induction false} JoinNonEmpty(parts: seq<string>)
    requires |parts| >= 1 && |parts[0]| > 0
    ensures |Join(parts, Separator)| > 0
  {
  }

  /** When the rendered numbers hold no `;`, the coordinates text lists one
      `(x, y)` entry per blob, in detector order. */
  lemma CoordinatesListBlobs(blobs: seq<Blob>, render: Render)
    requires |blobs| >= 1
    requires forall k :: 0 <= k < |blobs| ==> ';' !in render(blobs[k].x) && ';' !in render(blobs[k].y)
    ensures var entries := SplitEntries(Coordinates(blobs, render));
      && |entries| == |blobs|
      && forall k :: 0 <= k < |blobs| ==> entries[k] == "(" + render(blobs[k].x) + ", " + render(blobs[k].y) + ")"
  {
    var entries := CoordEntries(blobs, render);
    forall k | 0 <= k < |entries|
      ensures ';' !in entries[k]
    {
      assert entries[k] == "(" + render(blobs[k].x) + ", " + render(blobs[k].y) + ")";
    }
    SplitJoin(entries);
  }

  // ---------------------------------------------------------------------
  // The annotated image path
  // ---------------------------------------------------------------------

  function LastIndexOf(s: string, ch: char): (r: int)
    ensures -1 <= r < |s|
    ensures r >= 0 ==> s[r] == ch
    ensures forall k :: r < k < |s| ==> s[k] != ch
  {
    if |s| == 0 then -1
    else if s[|s| - 1] == ch then |s| - 1
    else LastIndexOf(s[..|s| - 1], ch)
  }

  /** `os.path.splitext(p)[0]`: drops the last extension of the last path
      component, but not the leading dots of a name such as `.hidden`. */
  function Stem(p: string): (r: string)
    ensures |r| <= |p| && r == p[..|r|]
    ensures r == p || (p[|r|] == '.' && forall k :: |r| < k < |p| ==> p[k] != '.' && p[k] != '/')
    ensures r != p ==> exists k :: LastIndexOf(p, '/') < k < |r| && p[k] != '.'
    ensures (exists k :: LastIndexOf(p, '/') < k < LastIndexOf(p, '.') && p[k] != '.') ==> r != p
  {
    var sep := LastIndexOf(p, '/');
    var dot := LastIndexOf(p, '.');
    if dot > sep && exists k :: sep + 1 <= k < dot && p[k] != '.' then p[..dot]
    else p
  }

  /** `os.path.join(directory, name)` for POSIX paths. */
  function PathJoin(directory: string, name: string): string {
    if |name| > 0 && name[0] == '/' then name
    else if |directory| == 0 || directory[|directory| - 1] == '/' then directory + name
    else directory + "/" + name
  }

  /** Where the annotated figure of `name` is saved, made absolute. */
  function ArtifactPath(outputDir: string, name: string, absPath: AbsPath): string {
    absPath(PathJoin(outputDir, Stem(name) + "_detected.jpg"))
  }

  // ---------------------------------------------------------------------
  // The result record
  // ---------------------------------------------------------------------

  const ErrorPrefix: string := "Error: "

  /** The record of a successful detection. */
  function SuccessRecord(name: string, blobs: seq<Blob>, outputDir: string, render: Render, absPath: AbsPath)
    : (r: DetectionRecord)
    ensures r.image == name && r.boatCount == |blobs|
    ensures r.detectedImage == Some(ArtifactPath(outputDir, name, absPath))
    ensures r.boatCoordinates == "" <==> |blobs| == 0
  {
    DetectionRecord(name, |blobs|, Some(ArtifactPath(outputDir, name, absPath)), Coordinates(blobs, render))
  }

  /** `process_single_image`: every exception is caught and becomes a
      record with no boats, no image and an `"Error: "` message. */
  function ProcessSingleImage(name: string, detect: Detector, outputDir: string, render: Render, absPath: AbsPath)
    : (r: DetectionRecord)
    ensures r.image == name
    ensures detect(name).Raised? ==>
      && r.boatCount == 0 && r.detectedImage.None?
      && r.boatCoordinates == ErrorPrefix + detect(name).message
    ensures detect(name).Blobs? ==>
      && r.boatCount == |detect(name).blobs|
      && r.detectedImage == Some(ArtifactPath(outputDir, name, absPath))
      && (r.boatCoordinates == "" <==> |detect(name).blobs| == 0)
  {
    match detect(name)
    case Raised(message) => DetectionRecord(name, 0, None, ErrorPrefix + message)
    case Blobs(blobs) => SuccessRecord(name, blobs, outputDir, render, absPath)
  }
}

=== FILE: filters.dfy ===
/** Order-preserving selections shared by the loaders of the scripts: the
    positions of a sequence at which a condition holds, and a reading loop
    that keeps what each element yields and stops at the first error.

    `Positions` is the reference against which the recursive loops of the
    other modules are checked: a loop that keeps exactly the elements at
    these positions, one each and in this order, is an in-order filter.
 */
module Filters {
  import opened Results

  /** The positions `j >= i` of `xs` at which `p` holds, in increasing order. */
  function PositionsFrom<T>(xs: seq<T>, p: T -> bool, i: nat): (idx: seq<nat>)
    requires i <= |xs|
    ensures forall k :: 0 <= k < |idx| ==> i <= idx[k] < |xs| && p(xs[idx[k]])
    decreases |xs| - i
  {
    if i == |xs| then []
    else (if p(xs[i]) then [i] else []) + PositionsFrom(xs, p, i + 1)
  }

  lemma PositionsFromStep<T>(xs: seq<T>, p: T -> bool, i: nat)
    requires i < |xs|
    ensures PositionsFrom(xs, p, i) == (if p(xs[i]) then [i] else []) + PositionsFrom(xs, p, i + 1)
  {
  }

  /** The positions come in increasing order. */
  lemma {:induction false} PositionsFromIncreasing<T>(xs: seq<T>, p: T -> bool, i: nat)
    requires i <= |xs|
    ensures forall k, l :: 0 <= k < l < |PositionsFrom(xs, p, i)| ==>
      PositionsFrom(xs, p, i)[k] < PositionsFrom(xs, p, i)[l]
    decreases |xs| - i
  {
    if i < |xs| {
      var later := PositionsFrom(xs, p, i + 1);
      var idx := PositionsFrom(xs, p, i);
      PositionsFromIncreasing(xs, p, i + 1);
      PositionsFromStep(xs, p, i);
      if p(xs[i]) {
        forall k, l | 0 <= k < l < |idx|
          ensures idx[k] < idx[l]
        {
          assert idx[l] == later[l - 1];
          if k > 0 {
            assert idx[k] == later[k - 1];
          }
        }
      }
    }
  }

  /** No position at which `p` holds is missed. */
  lemma {:induction false} PositionsFromComplete<T>(xs: seq<T>, p: T -> bool, i: nat)
    requires i <= |xs|
    ensures forall j :: i <= j < |xs| && p(xs[j]) ==> j in PositionsFrom(xs, p, i)
    decreases |xs| - i
  {
    if i < |xs| {
      var later := PositionsFrom(xs, p, i + 1);
      var idx := PositionsFrom(xs, p, i);
      PositionsFromComplete(xs, p, i + 1);
      PositionsFromStep(xs, p, i);
      forall j | i <= j < |xs| && p(xs[j])
        ensures j in idx
      {
        if j == i {
          assert idx[0] == i;
        } else {
          assert j in later;
        }
      }
    }
  }

  /** Every position of `xs` at which `p` holds, each once, in increasing order. */
  function Positions<T>(xs: seq<T>, p: T -> bool): (idx: seq<nat>)
    ensures forall k :: 0 <= k < |idx| ==> idx[k] < |xs| && p(xs[idx[k]])
    ensures forall k, l :: 0 <= k < l < |idx| ==> idx[k] < idx[l]
    ensures forall j :: 0 <= j < |xs| && p(xs[j]) ==> j in idx
  {
    PositionsFromIncreasing(xs, p, 0);
    PositionsFromComplete(xs, p, 0);
    PositionsFrom(xs, p, 0)
  }

  /** One step of a reading loop produced a value. */
  predicate Yields<T>(r: Result<Option<T>>) {
    r.Ok? && r.value.Some?
  }

  /** A loop that reads every element of `xs` in turn, keeps the values
      read, skips the elements that yield nothing, and stops at the first
      element whose reading raises. */
  function Gather<R, T>(xs: seq<R>, read: R -> Result<Option<T>>): (r: Result<seq<T>>)
    ensures r.Ok? <==> Every(xs, (x: R) => read(x).Ok?)
    ensures r.Ok? ==> |r.value| <= |xs|
  {
    if |xs| == 0 then Ok([])
    else
      var first :- read(xs[0]);
      var rest :- Gather(xs[1..], read);
      EveryCons(xs, (x: R) => read(x).Ok?);
      Ok(if first.Some? then [first.value] + rest else rest)
  }

  /** A successful loop over the suffix from `i` keeps, in order, exactly
      the values of the elements at the positions that yield one. */
  lemma {:induction false} GatherPositions<R, T>(xs: seq<R>, read: R -> Result<Option<T>>, p: R -> bool, i: nat)
    requires i <= |xs|
    requires forall x :: p(x) == Yields(read(x))
    requires Gather(xs[i..], read).Ok?
    ensures var out := Gather(xs[i..], read).value;
            var idx := PositionsFrom(xs, p, i);
      && |out| == |idx|
      && forall k :: 0 <= k < |idx| ==> read(xs[idx[k]]) == Ok(Some(out[k]))
    decreases |xs| - i
  {
    if i < |xs| {
      assert xs[i..][0] == xs[i];
      assert xs[i..][1..] == xs[i + 1..];
      GatherPositions(xs, read, p, i + 1);
    }
  }
}

=== FILE: metrics.dfy ===
/** `compute_MAE.py`: the agreement between the detector's `boat_count`
    and the hand-checked `Boat_Checked` column of the sampled workbook.

    A row whose `Boat_Checked` cell is empty reads as NaN: its difference is
    NaN, the mean skips it, and every comparison with it is false.  An empty
    frame has no mean, which pandas reports as NaN and the model as `None`.
 */
module Metrics {
  import opened Results

  datatype Observation = Observation(boatCount: int, checked: Option<int>, difference: Option<int>)

  /** `Boat_Checked - boat_count` for one row (NaN when unchecked). */
  function Difference(o: Observation): (d: Option<int>)
    ensures d.Some? <==> o.checked.Some?
    ensures d.Some? ==> o.boatCount + d.value == o.checked.value
  {
    match o.checked
    case None => None
    case Some(c) => Some(c - o.boatCount)
  }

  /** `df['Difference'] = df['Boat_Checked'] - df['boat_count']`. */
  function WithDifference(rows: seq<Observation>): (r: seq<Observation>)
    ensures |r| == |rows|
    ensures forall i :: 0 <= i < |rows| ==>
      r[i].boatCount == rows[i].boatCount && r[i].checked == rows[i].checked
      && r[i].difference == Difference(rows[i])
  {
    seq(|rows|, i requires 0 <= i < |rows| => rows[i].(difference := Difference(rows[i])))
  }

  /** The second assignment of the column leaves the frame as the first
      one left it. */
  lemma WithDifferenceIdempotent(rows: seq<Observation>)
    ensures WithDifference(WithDifference(rows)) == WithDifference(rows)
  {
    var once := WithDifference(rows);
    assert forall i :: 0 <= i < |once| ==> Difference(once[i]) == Difference(rows[i]);
  }

  function Abs(x: int): nat {
    if x < 0 then -x else x
  }

  /** Sum of `|Difference|` over the rows that have one. */
  function AbsSum(ds: seq<Option<int>>): nat {
    if |ds| == 0 then 0
    else (match ds[0] case None => 0 case Some(d) => Abs(d)) + AbsSum(ds[1..])
  }

  /** Number of rows whose Difference satisfies `p` (NaN satisfies nothing). */
  function CountWhere(ds: seq<Option<int>>, p: int -> bool): (n: nat)
    ensures n <= |ds|
  {
    if |ds| == 0 then 0
    else (if ds[0].Some? && p(ds[0].value) then 1 else 0) + CountWhere(ds[1..], p)
  }

  function Present(ds: seq<Option<int>>): (n: nat)
    ensures n <= |ds|
  {
    CountWhere(ds, _ => true)
  }

  function Differences(rows: seq<Observation>): (ds: seq<Option<int>>)
    ensures |ds| == |rows|
    ensures forall i :: 0 <= i < |rows| ==> ds[i] == Difference(rows[i])
  {
    seq(|rows|, i requires 0 <= i < |rows| => Difference(rows[i]))
  }

  /** `df['Difference'].abs().mean()`. */
  function MeanAbsoluteError(rows: seq<Observation>): (mae: Option<real>)
    ensures mae.None? <==> Present(Differences(rows)) == 0
    ensures mae.Some? ==> mae.value >= 0.0
  {
    var ds := Differences(rows);
    var n := Present(ds);
    if n == 0 then None else Some(AbsSum(ds) as real / n as real)
  }

  /** `(df['Difference'] == 0).mean()`: NaN rows count in the denominator. */
  function ExactAccuracy(rows: seq<Observation>): (acc: Option<real>)
    ensures acc.None? <==> |rows| == 0
    ensures acc.Some? ==> 0.0 <= acc.value <= 1.0
  {
    var ds := Differences(rows);
    if |rows| == 0 then None else Some(CountWhere(ds, d => d == 0) as real / |rows| as real)
  }

  /** `(df['Difference'] > 0).sum()` and `(df['Difference'] < 0).sum()`:
      rows where the hand count exceeds the detector's, and the reverse. */
  function Overcount(rows: seq<Observation>): nat {
    CountWhere(Differences(rows), d => d > 0)
  }

  function Undercount(rows: seq<Observation>): nat {
    CountWhere(Differences(rows), d => d < 0)
  }

  function ExactCount(rows: seq<Observation>): nat {
    CountWhere(Differences(rows), d => d == 0)
  }

  /** Every checked row is exactly one of over, under or exact. */
  lemma {:induction false} CountsPartition(ds: seq<Option<int>>)
    ensures CountWhere(ds, d => d > 0) + CountWhere(ds, d => d < 0) + CountWhere(ds, d => d == 0) == Present(ds)
  {
    if |ds| > 0 {
      CountsPartition(ds[1..]);
    }
  }

  /** Over, under and exact rows with the unchecked rows make up the frame. */
  lemma CountsCoverRows(rows: seq<Observation>)
    ensures Overcount(rows) + Undercount(rows) + ExactCount(rows) + (|rows| - Present(Differences(rows))) == |rows|
  {
    CountsPartition(Differences(rows));
  }

  /** The absolute differences sum to zero exactly when every present
      difference is zero. */
  lemma {:induction false} AbsSumZero(ds: seq<Option<int>>)
    ensures AbsSum(ds) == 0 <==> forall i :: 0 <= i < |ds| && ds[i].Some? ==> ds[i].value == 0
  {
    if |ds| > 0 {
      AbsSumZero(ds[1..]);
      assert forall i :: 1 <= i < |ds| ==> ds[i] == ds[1..][i - 1];
    }
  }

  /** All present rows exact iff the exact count is the number of present rows. */
  lemma {:induction false} ExactCountAll(ds: seq<Option<int>>)
    ensures CountWhere(ds, d => d == 0) == Present(ds)
        <==> forall i :: 0 <= i < |ds| && ds[i].Some? ==> ds[i].value == 0
  {
    if |ds| > 0 {
      ExactCountAll(ds[1..]);
      assert forall i :: 1 <= i < |ds| ==> ds[i] == ds[1..][i - 1];
      assert CountWhere(ds[1..], d => d == 0) <= Present(ds[1..]) by {
        CountsPartition(ds[1..]);
      }
    }
  }

  /** The MAE is zero exactly when every checked row agrees with the
      detector, and then the exact accuracy is the fraction of checked rows. */
  lemma MaeZeroIffAllExact(rows: seq<Observation>)
    requires Present(Differences(rows)) > 0
    ensures MeanAbsoluteError(rows) == Some(0.0)
        <==> forall i :: 0 <= i < |rows| && rows[i].checked.Some? ==> rows[i].checked.value == rows[i].boatCount
    ensures MeanAbsoluteError(rows) == Some(0.0) ==> ExactCount(rows) == Present(Differences(rows))
  {
    var ds := Differences(rows);
    AbsSumZero(ds);
    ExactCountAll(ds);
  }
}

=== FILE: parallel_pipeline.dfy ===
/** `gaussian_parallel.py`: detection in batches with per-image failure
    capture, each batch appended to the workbook as soon as it is done,
    then a pass that turns existing image paths into "View Image" links.

    The worker pool is an ordered sequential map (joblib returns results in
    dispatch order); the workbook is `None` while the file does not exist.
 */
module ParallelPipeline {
  import opened Results
  import opened Sheets
  import opened Batching
  import opened Detection
  import opened Priority
  import opened Filters

  const BatchSize: nat := 3000
  const OutputImgDir: string := "./output_parallel/"

  /** The column names of the result records, in DataFrame order. */
  const Columns: seq<string> := ["image", "boat_count", "detected_image", "boat_coordinates"]

  const LinkColumn: string := "detected_image"
  const LinkLabel: string := "View Image"

  /** The oracles of the run. */
  datatype Env = Env(detect: Detector, render: Render, absPath: AbsPath)

  /** `df[df["grey"]]["image"].tolist()` over the rows `(image, grey)`. */
  function GreyImages(rows: seq<(string, bool)>): (r: seq<string>)
    ensures |r| <= |rows|
    ensures |r| == 0 <==> forall i :: 0 <= i < |rows| ==> !rows[i].1
  {
    if |rows| == 0 then []
    else
      assert forall i :: 1 <= i < |rows| ==> rows[i] == rows[1..][i - 1];
      (if rows[0].1 then [rows[0].0] else []) + GreyImages(rows[1..])
  }

  /** A row of the image table marked grey. */
  predicate IsGrey(row: (string, bool)) {
    row.1
  }

  lemma {:induction false} GreyImagesFrom(rows: seq<(string, bool)>, i: nat)
    requires i <= |rows|
    ensures var out := GreyImages(rows[i..]);
            var idx := PositionsFrom(rows, IsGrey, i);
      && |out| == |idx|
      && forall k :: 0 <= k < |idx| ==> rows[idx[k]] == (out[k], true)
    decreases |rows| - i
  {
    if i < |rows| {
      var rest := GreyImages(rows[i + 1..]);
      var later := PositionsFrom(rows, IsGrey, i + 1);
      assert GreyImages(rows[i..]) == (if rows[i].1 then [rows[i].0] else []) + rest by {
        assert rows[i..][0] == rows[i];
        assert rows[i..][1..] == rows[i + 1..];
      }
      assert PositionsFrom(rows, IsGrey, i) == (if IsGrey(rows[i]) then [i] else []) + later;
      GreyImagesFrom(rows, i + 1);
    }
  }

  /** The list is the grey rows' images in table order, one per grey row:
      image `k` is that of the `k`-th grey row. */
  lemma GreyImagesInOrder(rows: seq<(string, bool)>)
    ensures var idx := Positions(rows, IsGrey);
      && |GreyImages(rows)| == |idx|
      && forall k :: 0 <= k < |idx| ==> rows[idx[k]] == (GreyImages(rows)[k], true)
  {
    assert rows[0..] == rows;
    GreyImagesFrom(rows, 0);
  }

  /** The list holds exactly the images of the rows marked grey. */
  lemma {:induction false} GreyImagesMembers(rows: seq<(string, bool)>)
    ensures forall k :: 0 <= k < |GreyImages(rows)| ==> (GreyImages(rows)[k], true) in rows
    ensures forall i :: 0 <= i < |rows| && rows[i].1 ==> rows[i].0 in GreyImages(rows)
  {
    if |rows| > 0 {
      GreyImagesMembers(rows[1..]);
      var rest := GreyImages(rows[1..]);
      forall k | 0 <= k < |rest|
        ensures (rest[k], true) in rows
      {
        assert (rest[k], true) in rows[1..];
      }
      assert forall i :: 1 <= i < |rows| ==> rows[i] == rows[1..][i - 1];
    }
  }

  /** The header row pandas writes. */
  function HeaderRow(): Row {
    seq(|Columns|, k requires 0 <= k < |Columns| => Cell(Text(Columns[k]), None, HeaderFont))
  }

  /** A result record as a worksheet row (`None` is an empty cell). */
  function RecordRow(r: DetectionRecord): Row {
    [ Cell(Text(r.image), None, DefaultFont),
      Cell(Number(r.boatCount), None, DefaultFont),
      Cell(match r.detectedImage case None => Blank case Some(p) => Text(p), None, DefaultFont),
      Cell(Text(r.boatCoordinates), None, DefaultFont) ]
  }

  function RecordRows(rs: seq<DetectionRecord>): (rows: seq<Row>)
    ensures |rows| == |rs|
    ensures forall k :: 0 <= k < |rs| ==> rows[k] == RecordRow(rs[k])
  {
    seq(|rs|, k requires 0 <= k < |rs| => RecordRow(rs[k]))
  }

  /** The results of one batch, one per image, in the batch's order. */
  function ProcessBatch(batch: seq<string>, env: Env): (rs: seq<DetectionRecord>)
    ensures |rs| == |batch|
    ensures forall k :: 0 <= k < |batch| ==>
      rs[k] == ProcessSingleImage(batch[k], env.detect, OutputImgDir, env.render, env.absPath)
    ensures forall k :: 0 <= k < |batch| ==> rs[k].image == batch[k]
  {
    seq(|batch|, k requires 0 <= k < |batch| =>
      ProcessSingleImage(batch[k], env.detect, OutputImgDir, env.render, env.absPath))
  }

  /** The `KeyError` `append_to_excel` raises when the workbook it appends
      to has no sheet named `Sheet1`. */
  const SheetMissing := "KeyError: 'Sheet1'"

  /** `append_to_excel`: a missing workbook is created with the header and
      the batch; otherwise the batch goes, without a header, into the rows
      after `max_row` of the sheet `Sheet1`, and the rows already there are
      left as they are.  A workbook whose sheet has another name cannot be
      appended to. */
  function AppendToExcel(store: Option<Sheet>, rs: seq<DetectionRecord>): (r: Result<Sheet>)
    ensures store.None? ==> r == Ok(Sheet(DefaultTitle, [HeaderRow()] + RecordRows(rs)))
    ensures store.Some? ==> (r.Err? <==> store.value.title != DefaultTitle)
    ensures store.Some? && r.Ok? ==>
      && r.value.title == store.value.title
      && |r.value.rows| == MaxRow(store.value) + |rs|
      && r.value.rows[..|store.value.rows|] == store.value.rows
      && (forall k :: |store.value.rows| <= k < MaxRow(store.value) ==> r.value.rows[k] == [])
      && r.value.rows[MaxRow(store.value)..] == RecordRows(rs)
  {
    match store
    case None => Ok(Sheet(DefaultTitle, [HeaderRow()] + RecordRows(rs)))
    case Some(s) =>
      if s.title != DefaultTitle then Err(SheetMissing)
      else
        var gap := seq(MaxRow(s) - |s.rows|, _ => []);
        var r := Sheet(s.title, s.rows + gap + RecordRows(rs));
        assert r.rows[..|s.rows|] == s.rows;
        assert r.rows[MaxRow(s)..] == RecordRows(rs);
        Ok(r)
  }

  /** The main loop: each batch processed, then committed; the run stops at
      the first commit that raises. */
  function RunBatches(store: Option<Sheet>, batches: seq<seq<string>>, env: Env): (r: Result<Option<Sheet>>)
    ensures r.Err? <==> |batches| > 0 && store.Some? && store.value.title != DefaultTitle
    ensures |batches| > 0 && r.Ok? ==> r.value.Some? && r.value.value.title == DefaultTitle
    decreases |batches|
  {
    if |batches| == 0 then Ok(store)
    else
      var s :- AppendToExcel(store, ProcessBatch(batches[0], env));
      RunBatches(Some(s), batches[1..], env)
  }

  /** All the results of a run, in batch order. */
  function AllResults(batches: seq<seq<string>>, env: Env): (rs: seq<DetectionRecord>)
    ensures |rs| == |Flatten(batches)|
  {
    if |batches| == 0 then []
    else ProcessBatch(batches[0], env) + AllResults(batches[1..], env)
  }

  /** Resuming: committing the first `k` batches, stopping, and committing
      the rest from the saved workbook gives the workbook of one full run;
      a run that raised on the first `k` batches raises the same error. */
  lemma {:induction false} ResumeIsSplitRun(store: Option<Sheet>, batches: seq<seq<string>>, k: nat, env: Env)
    requires k <= |batches|
    ensures var first := RunBatches(store, batches[..k], env);
      && (first.Ok? ==> RunBatches(first.value, batches[k..], env) == RunBatches(store, batches, env))
      && (first.Err? ==> RunBatches(store, batches, env) == first)
    decreases k
  {
    if k > 0 {
      assert batches[..k][0] == batches[0];
      assert batches[..k][1..] == batches[1..][..k - 1];
      assert batches[k..] == batches[1..][k - 1..];
      var appended := AppendToExcel(store, ProcessBatch(batches[0], env));
      if appended.Ok? {
        ResumeIsSplitRun(Some(appended.value), batches[1..], k - 1, env);
      }
    } else {
      assert batches[0..] == batches;
    }
  }

  lemma AppendToExisting(s: Sheet, rs: seq<DetectionRecord>)
    requires |s.rows| >= 1
    ensures AppendToExcel(Some(s), rs) ==
      if s.title == DefaultTitle then Ok(Sheet(s.title, s.rows + RecordRows(rs))) else Err(SheetMissing)
  {
    var r := AppendToExcel(Some(s), rs);
    if r.Ok? {
      assert r.value.rows == r.value.rows[..|s.rows|] + r.value.rows[MaxRow(s)..];
    }
  }

  lemma RecordRowsAppend(a: seq<DetectionRecord>, b: seq<DetectionRecord>)
    ensures RecordRows(a + b) == RecordRows(a) + RecordRows(b)
  {
  }

  /** One step of the loop on an existing `Sheet1` store. */
  lemma CommitToSheet1(s: Sheet, batches: seq<seq<string>>, env: Env)
    requires |s.rows| >= 1 && s.title == DefaultTitle && |batches| > 0
    ensures RunBatches(Some(s), batches, env) ==
      RunBatches(Some(Sheet(s.title, s.rows + RecordRows(ProcessBatch(batches[0], env)))), batches[1..], env)
  {
    AppendToExisting(s, ProcessBatch(batches[0], env));
  }

  /** An existing `Sheet1` store holds its earlier rows followed by the
      results of every batch committed since, in order. */
  lemma {:induction false} RunFromSheet1(s: Sheet, batches: seq<seq<string>>, env: Env)
    requires |s.rows| >= 1 && s.title == DefaultTitle
    ensures RunBatches(Some(s), batches, env) == Ok(Some(Sheet(s.title, s.rows + RecordRows(AllResults(batches, env)))))
    decreases |batches|
  {
    if |batches| > 0 {
      var rs := ProcessBatch(batches[0], env);
      var rest := AllResults(batches[1..], env);
      var s' := Sheet(s.title, s.rows + RecordRows(rs));
      CommitToSheet1(s, batches, env);
      RunFromSheet1(s', batches[1..], env);
      assert AllResults(batches, env) == rs + rest;
      RecordRowsAppend(rs, rest);
      ConcatAssociative(s.rows, RecordRows(rs), RecordRows(rest));
    } else {
      assert s.rows + RecordRows([]) == s.rows;
    }
  }

  /** Once the store exists it holds its earlier rows followed by the
      results of every batch committed since, in order; a store whose sheet
      is not `Sheet1` makes the first commit raise. */
  lemma RunFromExisting(s: Sheet, batches: seq<seq<string>>, env: Env)
    requires |s.rows| >= 1
    ensures RunBatches(Some(s), batches, env) ==
      if |batches| > 0 && s.title != DefaultTitle then Err(SheetMissing)
      else Ok(Some(Sheet(s.title, s.rows + RecordRows(AllResults(batches, env)))))
  {
    if s.title == DefaultTitle {
      RunFromSheet1(s, batches, env);
    } else if |batches| > 0 {
      assert AppendToExcel(Some(s), ProcessBatch(batches[0], env)) == Err(SheetMissing);
    } else {
      assert s.rows + RecordRows([]) == s.rows;
    }
  }

  /** Each image of the batches yields exactly one record, in order, named
      after the image, whatever the detector did with it. */
  lemma {:induction false} AllResultsFollowInput(batches: seq<seq<string>>, env: Env)
    ensures var rs := AllResults(batches, env);
      forall k :: 0 <= k < |rs| ==>
        rs[k] == ProcessSingleImage(Flatten(batches)[k], env.detect, OutputImgDir, env.render, env.absPath)
  {
    if |batches| > 0 {
      AllResultsFollowInput(batches[1..], env);
    }
  }

  lemma ConcatAssociative<T>(a: seq<T>, b: seq<T>, c: seq<T>)
    ensures (a + b) + c == a + (b + c)
  {
  }

  /** A run from no workbook creates it with the first batch and appends
      the rest: the header, then every result. */
  lemma FreshRun(batches: seq<seq<string>>, env: Env)
    requires |batches| >= 1
    ensures RunBatches(None, batches, env) == Ok(Some(Sheet(DefaultTitle, [HeaderRow()] + RecordRows(AllResults(batches, env)))))
  {
    var rs := ProcessBatch(batches[0], env);
    var rest := AllResults(batches[1..], env);
    var first := Sheet(DefaultTitle, [HeaderRow()] + RecordRows(rs));
    assert AppendToExcel(None, rs) == Ok(first);
    assert RunBatches(None, batches, env) == RunBatches(Some(first), batches[1..], env);
    assert RunBatches(Some(first), batches[1..], env) == Ok(Some(Sheet(DefaultTitle, first.rows + RecordRows(rest)))) by {
      RunFromSheet1(first, batches[1..], env);
    }
    assert first.rows + RecordRows(rest) == [HeaderRow()] + RecordRows(AllResults(batches, env)) by {
      assert AllResults(batches, env) == rs + rest;
      RecordRowsAppend(rs, rest);
      ConcatAssociative([HeaderRow()], RecordRows(rs), RecordRows(rest));
    }
  }

  /** After the loop over a non-empty image list, a fresh workbook holds the
      header and then one row per image, in input order: `1 + n` rows. */
  lemma StoreAfterLoop(images: seq<string>, env: Env)
    requires |images| >= 1
    ensures var store := RunBatches(None, RangeBatches(images, BatchSize), env);
      && store.Ok? && store.value.Some?
      && |store.value.value.rows| == 1 + |images|
      && store.value.value.rows[0] == HeaderRow()
      && forall k :: 0 <= k < |images| ==>
           store.value.value.rows[k + 1] ==
             RecordRow(ProcessSingleImage(images[k], env.detect, OutputImgDir, env.render, env.absPath))
  {
    var batches := RangeBatches(images, BatchSize);
    RangeBatchesPartition(images, BatchSize);
    assert |batches| >= 1;
    FreshRun(batches, env);
    AllResultsFollowInput(batches, env);
  }

  // ---------------------------------------------------------------------
  // The hyperlink finishing pass
  // ---------------------------------------------------------------------

  /** The first column, counted from 1, whose header cell reads `name`. */
  function FindColumn(header: Row, name: string): (r: Option<nat>)
    ensures r.Some? ==> 1 <= r.value <= |header| && header[r.value - 1].value == Text(name)
    ensures r.Some? ==> forall j :: 0 <= j < r.value - 1 ==> header[j].value != Text(name)
    ensures r.None? ==> forall j :: 0 <= j < |header| ==> header[j].value != Text(name)
  {
    match FirstSuccess(header, (c: Cell) => if c.value == Text(name) then Some(()) else None)
    case None => None
    case Some(p) => Some(p.0 + 1)
  }

  /** In the header pandas writes, `detected_image` is the third column. */
  lemma LinkColumnOfHeader()
    ensures FindColumn(HeaderRow(), LinkColumn) == Some(3)
  {
    var h := HeaderRow();
    assert h[0].value != Text(LinkColumn) && h[1].value != Text(LinkColumn) && h[2].value == Text(LinkColumn);
  }

  /** `ws[1]`: the header row. */
  function HeaderOf(sheet: Sheet): Row {
    if |sheet.rows| == 0 then [] else sheet.rows[0]
  }

  /** The cell rewrite of the parallel pass: only a non-empty path that
      exists becomes a link. */
  function LinkIfExists(cell: Cell, exists_: string -> bool): Cell {
    if cell.value.Text? && Truthy(cell.value) && exists_(cell.value.text)
    then Cell(Text(LinkLabel), Some(cell.value.text), LinkFont)
    else cell
  }

  /** Applies the rewrite to column `col` of the data rows (2..max_row). */
  function RewriteColumn(sheet: Sheet, col: nat, rewrite: Cell -> Cell): (r: Sheet)
    requires col >= 1
    ensures r.title == sheet.title && |r.rows| == |sheet.rows|
    ensures |sheet.rows| > 0 ==> r.rows[0] == sheet.rows[0]
    ensures forall k :: 1 <= k < |sheet.rows| ==>
      r.rows[k] == SetCell(sheet.rows[k], col, rewrite(RowCell(sheet.rows[k], col)))
  {
    Sheet(sheet.title, seq(|sheet.rows|, k requires 0 <= k < |sheet.rows| =>
      if k == 0 then sheet.rows[0] else SetCell(sheet.rows[k], col, rewrite(RowCell(sheet.rows[k], col)))))
  }

  /** The finishing pass of `gaussian_parallel.py`. */
  function FinishParallel(sheet: Sheet, exists_: string -> bool): (r: Sheet)
    ensures r.title == sheet.title && |r.rows| == |sheet.rows|
    ensures FindColumn(HeaderOf(sheet), LinkColumn).None? ==> r == sheet
    ensures |sheet.rows| > 0 ==> r.rows[0] == sheet.rows[0]
  {
    match FindColumn(HeaderOf(sheet), LinkColumn)
    case None => sheet
    case Some(col) =>
      var r := RewriteColumn(sheet, col, c => LinkIfExists(c, exists_));
      r
  }

  /** What the pass does to each data cell: in the `detected_image` column
      a non-empty existing path becomes "View Image" linking to that path;
      every other cell keeps its value, link and font. */
  lemma FinishParallelCells(sheet: Sheet, exists_: string -> bool, k: nat, j: nat)
    requires 1 <= k < |sheet.rows| && j >= 1
    ensures var r := FinishParallel(sheet, exists_);
      var col := FindColumn(HeaderOf(sheet), LinkColumn);
      var old_ := RowCell(sheet.rows[k], j);
      && (col.Some? && j == col.value && old_.value.Text? && old_.value.text != "" && exists_(old_.value.text) ==>
            RowCell(r.rows[k], j) == Cell(Text(LinkLabel), Some(old_.value.text), LinkFont))
      && (!(col.Some? && j == col.value && old_.value.Text? && old_.value.text != "" && exists_(old_.value.text)) ==>
            RowCell(r.rows[k], j) == old_)
  {
  }

  lemma LinkIfExistsIdempotent(cell: Cell, exists_: string -> bool)
    requires !exists_(LinkLabel)
    ensures LinkIfExists(LinkIfExists(cell, exists_), exists_) == LinkIfExists(cell, exists_)
  {
  }

  /** Running the finishing pass again changes nothing, as long as
      "View Image" is not itself an existing path. */
  lemma {:induction false} FinishParallelIdempotent(sheet: Sheet, exists_: string -> bool)
    requires !exists_(LinkLabel)
    ensures FinishParallel(FinishParallel(sheet, exists_), exists_) == FinishParallel(sheet, exists_)
  {
    var once := FinishParallel(sheet, exists_);
    match FindColumn(HeaderOf(sheet), LinkColumn)
    case None =>
    case Some(col) =>
      assert HeaderOf(once) == HeaderOf(sheet);
      var twice := FinishParallel(once, exists_);
      assert |twice.rows| == |once.rows|;
      forall k | 0 <= k < |once.rows|
        ensures twice.rows[k] == once.rows[k]
      {
        if k >= 1 {
          var row := sheet.rows[k];
          var c1 := LinkIfExists(RowCell(row, col), exists_);
          var row1 := SetCell(row, col, c1);
          assert once.rows[k] == row1;
          assert RowCell(row1, col) == c1;
          LinkIfExistsIdempotent(RowCell(row, col), exists_);
          var row2 := SetCell(row1, col, LinkIfExists(c1, exists_));
          assert twice.rows[k] == row2;
          assert |row2| == |row1|;
          forall j | 0 <= j < |row2|
            ensures row2[j] == row1[j]
          {
            assert RowCell(row2, j + 1) == RowCell(row1, j + 1);
          }
        }
      }
  }

  /** The script after its configuration: grey images, batches, the loop,
      then the finishing pass.  The run fails when a commit raises (an
      existing workbook without a `Sheet1` sheet) or when no workbook was
      ever written (`load_workbook` on a missing file). */
  function RunParallel(csvRows: seq<(string, bool)>, existing: Option<Sheet>, env: Env,
                       exists_: string -> bool): (r: Result<Sheet>)
    ensures r.Err? <==>
      if |GreyImages(csvRows)| == 0 then existing.None?
      else existing.Some? && existing.value.title != DefaultTitle
  {
    var images := GreyImages(csvRows);
    var batches := RangeBatches(images, BatchSize);
    RangeBatchesPartition(images, BatchSize);
    assert |batches| == 0 <==> |images| == 0;
    match RunBatches(existing, batches, env)
    case Err(e) => Err(e)
    case Ok(None) =>
      Err("No such file or directory: './boat_detections_parallel.xlsx'")
    case Ok(Some(sheet)) => Ok(FinishParallel(sheet, exists_))
  }
}

=== FILE: priority.dfy ===
/** "Try the candidates in a fixed order, the first that succeeds wins."

    The sensor-log loader uses this pattern twice over column names (the
    first accepted header present in a row) and once over timestamp formats
    (the first format `strptime` accepts).
 */
module Priority {
  import opened Results

  /** The first candidate, in order, for which `attempt` succeeds, with its
      position and the value it produced. */
  function FirstSuccess<T, U>(candidates: seq<T>, attempt: T -> Option<U>): (r: Option<(nat, U)>)
    ensures r.Some? ==>
      && r.value.0 < |candidates|
      && attempt(candidates[r.value.0]) == Some(r.value.1)
      && forall j :: 0 <= j < r.value.0 ==> attempt(candidates[j]).None?
    ensures r.None? ==> forall j :: 0 <= j < |candidates| ==> attempt(candidates[j]).None?
  {
    if |candidates| == 0 then None
    else match attempt(candidates[0])
      case Some(u) => Some((0, u))
      case None =>
        match FirstSuccess(candidates[1..], attempt)
        case None => None
        case Some(p) => Some((p.0 + 1, p.1))
  }

  /** The value found is determined by the candidates alone: any position
      that succeeds with nothing earlier succeeding is the one chosen. */
  lemma FirstSuccessUnique<T, U>(candidates: seq<T>, attempt: T -> Option<U>, i: nat)
    requires i < |candidates| && attempt(candidates[i]).Some?
    requires forall j :: 0 <= j < i ==> attempt(candidates[j]).None?
    ensures FirstSuccess(candidates, attempt) == Some((i, attempt(candidates[i]).value))
  {
  }
}

=== FILE: results.dfy ===
/** Failure-carrying values shared by every module of the model.

    The scripts signal failure in two ways: by returning `None` (an absent
    reading, an unparsable filename) and by raising an exception that aborts
    the run (an invalid calendar value, a non-numeric light value, a missing
    workbook).  `Option` models the first, `Result` the second; the error
    string stands for the exception's message.
 */
module Results {

  datatype Option<+T> = None | Some(value: T)

  datatype Result<+T> = Ok(value: T) | Err(error: string) {

    predicate IsFailure() {
      Err?
    }

    function PropagateFailure<U>(): Result<U>
      requires Err?
    {
      Err(error)
    }

    function Extract(): T
      requires Ok?
    {
      value
    }
  }

  /** Every element of `xs` satisfies `p`: no step of a loop over `xs` fails. */
  predicate Every<T>(xs: seq<T>, p: T -> bool) {
    forall i :: 0 <= i < |xs| ==> p(xs[i])
  }

  lemma EveryCons<T>(xs: seq<T>, p: T -> bool)
    requires |xs| > 0
    ensures Every(xs, p) <==> p(xs[0]) && Every(xs[1..], p)
  {
    assert forall i :: 1 <= i < |xs| ==> xs[i] == xs[1..][i - 1];
  }
}

=== FILE: sampling.dfy ===
/** `random_sample_gaussian.py`: a reproducible sample of at most 100 data
    rows of the detections workbook, copied in their original order into a
    new workbook with the header, keeping each cell's link.

    The draw of `random.sample` after `random.seed(42)` is a parameter: the
    model relies only on it returning the requested number of distinct
    members of the population.
 */
module Sampling {
  import opened Results
  import opened Sheets
  import opened Batching

  const SampleSize: nat := 100
  const RandomSeed: int := 42
  const SampleSuffix: string := "_sample"
  const FallbackLabel: string := "View Image"

  /** `random.sample(population, k)` after `random.seed(seed)`. */
  type Draw = (int, seq<int>, nat) -> seq<int>

  predicate Distinct(s: seq<int>) {
    forall i, j :: 0 <= i < j < |s| ==> s[i] != s[j]
  }

  /** What `random.sample` promises: `k` members drawn without replacement. */
  predicate IsSample(s: seq<int>, population: seq<int>, k: nat) {
    && |s| == k
    && Distinct(s)
    && forall i :: 0 <= i < |s| ==> s[i] in population
  }

  /** `list(range(2, max_row + 1))`: every data row of the sheet. */
  function AvailableRows(sheet: Sheet): (r: seq<int>)
    ensures |r| == MaxRow(sheet) - 1
    ensures forall i :: 0 <= i < |r| ==> r[i] == i + 2
  {
    seq(MaxRow(sheet) - 1, i requires 0 <= i < MaxRow(sheet) - 1 => i + 2)
  }

  /** `min(SAMPLE_SIZE, len(available_rows))`. */
  function SampleCount(sheet: Sheet): (k: nat)
    ensures k <= SampleSize && k <= MaxRow(sheet) - 1
    ensures k == SampleSize || k == MaxRow(sheet) - 1
  {
    Min(SampleSize, MaxRow(sheet) - 1)
  }

  predicate Sorted(s: seq<int>) {
    forall i, j :: 0 <= i < j < |s| ==> s[i] <= s[j]
  }

  function Insert(x: int, s: seq<int>): (r: seq<int>)
    requires Sorted(s)
    ensures Sorted(r)
    ensures multiset(r) == multiset(s) + multiset{x}
    ensures |r| == |s| + 1
    ensures r[0] == if |s| == 0 || x <= s[0] then x else s[0]
  {
    if |s| == 0 then [x]
    else if x <= s[0] then [x] + s
    else
      var rest := Insert(x, s[1..]);
      assert s == [s[0]] + s[1..];
      [s[0]] + rest
  }

  /** `sorted(...)` on a list of row numbers. */
  function Sort(s: seq<int>): (r: seq<int>)
    ensures Sorted(r)
    ensures multiset(r) == multiset(s)
    ensures |r| == |s|
  {
    if |s| == 0 then []
    else
      assert s == [s[0]] + s[1..];
      Insert(s[0], Sort(s[1..]))
  }

  /** Every element of a sorted sequence is at least its first. */
  lemma SortedHeadIsLeast(s: seq<int>, x: int)
    requires Sorted(s) && |s| > 0
    requires x in multiset(s)
    ensures s[0] <= x
  {
    assert x in s;
  }

  /** A sorted sequence is determined by its elements. */
  lemma {:induction false} SortedUnique(a: seq<int>, b: seq<int>)
    requires Sorted(a) && Sorted(b)
    requires multiset(a) == multiset(b)
    ensures a == b
  {
    assert |a| == |multiset(a)| == |multiset(b)| == |b|;
    if |a| > 0 {
      assert a[0] in multiset(b) by { assert a[0] in a; }
      assert b[0] in multiset(a) by { assert b[0] in b; }
      SortedHeadIsLeast(b, a[0]);
      SortedHeadIsLeast(a, b[0]);
      assert a[0] == b[0];
      assert a == [a[0]] + a[1..];
      assert b == [b[0]] + b[1..];
      assert multiset(a[1..]) == multiset(a) - multiset{a[0]} by {
        assert multiset(a) == multiset{a[0]} + multiset(a[1..]);
      }
      assert multiset(b[1..]) == multiset(b) - multiset{b[0]} by {
        assert multiset(b) == multiset{b[0]} + multiset(b[1..]);
      }
      assert multiset(a[1..]) == multiset(b[1..]);
      SortedUnique(a[1..], b[1..]);
    }
  }

  /** Sorting distinct row numbers leaves them strictly ascending. */
  lemma SortDistinctAscending(s: seq<int>)
    requires Distinct(s)
    ensures forall i, j :: 0 <= i < j < |Sort(s)| ==> Sort(s)[i] < Sort(s)[j]
  {
    var r := Sort(s);
    forall i, j | 0 <= i < j < |r|
      ensures r[i] < r[j]
    {
      if r[i] == r[j] {
        MultisetOfTwo(r, i, j);
        DistinctCountsOne(s, r[i]);
        assert false;
      }
    }
  }

  /** A value occurs at most once in a sequence without repetitions. */
  lemma {:induction false} DistinctCountsOne(s: seq<int>, x: int)
    requires Distinct(s)
    ensures multiset(s)[x] <= 1
  {
    if |s| > 0 {
      assert s == [s[0]] + s[1..];
      DistinctCountsOne(s[1..], x);
      if s[0] == x {
        assert x !in s[1..];
      }
    }
  }

  lemma {:induction false} MultisetOfTwo(s: seq<int>, i: nat, j: nat)
    requires i < j < |s|
    ensures multiset{s[i], s[j]} <= multiset(s)
  {
    assert s == s[..i] + [s[i]] + s[i + 1..j] + [s[j]] + s[j + 1..];
  }

  /** The header copy: value and font, no link. */
  function HeaderCopy(cell: Cell): (r: Cell)
    ensures r.value == cell.value && r.font == cell.font && r.hyperlink.None?
  {
    Cell(cell.value, None, cell.font)
  }

  /** A cell whose link has a target keeps it, under its own text or, if
      that is empty, under "View Image", in the link style; any other cell
      keeps value and font and loses its link. */
  function DataCopy(cell: Cell): (r: Cell)
    ensures HasTarget(cell) <==> r.hyperlink.Some?
    ensures HasTarget(cell) ==> r.hyperlink == cell.hyperlink && r.font == LinkFont && Truthy(r.value)
    ensures HasTarget(cell) && Truthy(cell.value) ==> r.value == cell.value
    ensures !HasTarget(cell) ==> r.value == cell.value && r.font == cell.font
  {
    if HasTarget(cell) then
      Cell(if Truthy(cell.value) then cell.value else Text(FallbackLabel), cell.hyperlink, LinkFont)
    else
      Cell(cell.value, None, cell.font)
  }

  /** `src_cell.hyperlink is not None and src_cell.hyperlink.target`. */
  predicate HasTarget(cell: Cell) {
    cell.hyperlink.Some? && cell.hyperlink.value != ""
  }

  /** Columns 1 to `width` of row `r` of the sheet, each through `copy`. */
  function CopyRow(sheet: Sheet, r: nat, width: nat, copy: Cell -> Cell): (row: Row)
    ensures |row| == width
    ensures forall c :: 1 <= c <= width ==> RowCell(row, c) == copy(CellAt(sheet, r, c))
  {
    seq(width, c requires 0 <= c < width => copy(CellAt(sheet, r, c + 1)))
  }

  /** The sampled workbook for the rows `picked` of the source. */
  function Export(sheet: Sheet, picked: seq<int>): (out: Sheet)
    requires forall i :: 0 <= i < |picked| ==> picked[i] >= 2
    ensures out.title == sheet.title + SampleSuffix
    ensures |out.rows| == 1 + |picked|
    ensures forall i :: 0 <= i < |out.rows| ==> |out.rows[i]| == MaxColumn(sheet)
    ensures out.rows[0] == CopyRow(sheet, 1, MaxColumn(sheet), HeaderCopy)
    ensures forall i :: 0 <= i < |picked| ==> out.rows[i + 1] == CopyRow(sheet, picked[i], MaxColumn(sheet), DataCopy)
  {
    var width := MaxColumn(sheet);
    Sheet(sheet.title + SampleSuffix,
          [CopyRow(sheet, 1, width, HeaderCopy)]
          + seq(|picked|, i requires 0 <= i < |picked| => CopyRow(sheet, picked[i], width, DataCopy)))
  }

  /** The script: draw, sort, copy. */
  function SampleWorkbook(sheet: Sheet, draw: Draw): (out: Sheet)
    requires IsSample(draw(RandomSeed, AvailableRows(sheet), SampleCount(sheet)), AvailableRows(sheet), SampleCount(sheet))
    ensures |out.rows| == 1 + SampleCount(sheet)
    ensures out.title == sheet.title + SampleSuffix
  {
    var drawn := draw(RandomSeed, AvailableRows(sheet), SampleCount(sheet));
    var picked := Sort(drawn);
    PickedAreDataRows(sheet, drawn);
    Export(sheet, picked)
  }

  /** The sorted draw names data rows only, each once, in ascending order. */
  lemma PickedAreDataRows(sheet: Sheet, drawn: seq<int>)
    requires IsSample(drawn, AvailableRows(sheet), |drawn|)
    ensures forall i :: 0 <= i < |Sort(drawn)| ==> 2 <= Sort(drawn)[i] <= MaxRow(sheet)
    ensures forall i, j :: 0 <= i < j < |Sort(drawn)| ==> Sort(drawn)[i] < Sort(drawn)[j]
  {
    var picked := Sort(drawn);
    var avail := AvailableRows(sheet);
    forall i | 0 <= i < |picked|
      ensures 2 <= picked[i] <= MaxRow(sheet)
    {
      assert picked[i] in multiset(drawn);
      var j :| 0 <= j < |drawn| && drawn[j] == picked[i];
      var m :| 0 <= m < |avail| && avail[m] == drawn[j];
    }
    SortDistinctAscending(drawn);
  }

  /** Output row `i + 2` is the copy of the `i`-th smallest drawn row. */
  lemma SampleRowsInOrder(sheet: Sheet, draw: Draw, i: nat)
    requires IsSample(draw(RandomSeed, AvailableRows(sheet), SampleCount(sheet)), AvailableRows(sheet), SampleCount(sheet))
    requires i < SampleCount(sheet)
    ensures var picked := Sort(draw(RandomSeed, AvailableRows(sheet), SampleCount(sheet)));
      && 2 <= picked[i] <= MaxRow(sheet)
      && SampleWorkbook(sheet, draw).rows[i + 1] == CopyRow(sheet, picked[i], MaxColumn(sheet), DataCopy)
  {
    PickedAreDataRows(sheet, draw(RandomSeed, AvailableRows(sheet), SampleCount(sheet)));
  }

  /** Only the set of rows drawn matters, not the order `random.sample`
      returns them in. */
  lemma OrderOfDrawIrrelevant(sheet: Sheet, draw1: Draw, draw2: Draw)
    requires IsSample(draw1(RandomSeed, AvailableRows(sheet), SampleCount(sheet)), AvailableRows(sheet), SampleCount(sheet))
    requires IsSample(draw2(RandomSeed, AvailableRows(sheet), SampleCount(sheet)), AvailableRows(sheet), SampleCount(sheet))
    requires multiset(draw1(RandomSeed, AvailableRows(sheet), SampleCount(sheet)))
          == multiset(draw2(RandomSeed, AvailableRows(sheet), SampleCount(sheet)))
    ensures SampleWorkbook(sheet, draw1) == SampleWorkbook(sheet, draw2)
  {
    var s1 := draw1(RandomSeed, AvailableRows(sheet), SampleCount(sheet));
    var s2 := draw2(RandomSeed, AvailableRows(sheet), SampleCount(sheet));
    SortedUnique(Sort(s1), Sort(s2));
  }

  /** A link survives the copy unchanged, so copying a sample again keeps
      every link. */
  lemma DataCopyIdempotent(cell: Cell)
    ensures DataCopy(DataCopy(cell)) == DataCopy(cell)
  {
  }
}

=== FILE: segmentation.dfy ===
/** The day/night decision of `day_night.py` and the per-image loop that
    applies it to a directory listing.

    A sensor reading near the capture instant decides on its own; only
    without one does the astronomical rule `sunrise <= t < sunset` apply.
 */
module Segmentation {
  import opened Results
  import opened Timestamps
  import opened SensorLog
  import opened Sun

  datatype Segment = Day | Night {
    function Label(): string {
      match this
      case Day => "day"
      case Night => "night"
    }
  }

  datatype Method = LuxSensor | TimeBased {
    function Label(): string {
      match this
      case LuxSensor => "lux_sensor"
      case TimeBased => "time_based"
    }
  }

  /** `LUX_THRESHOLD`: readings at or above it are daylight. */
  const LuxThreshold: real := 50.0

  /** `LUX_TIME_TOLERANCE`, in seconds. */
  const LuxTimeTolerance: int := 300

  /** The configuration key that selects the three-site average. */
  const AverageKey: string := "average"

  /** The sun times the time-based rule uses for `location`; an unknown key
      other than `"average"` raises `KeyError`. */
  function SunTimesFor(t: Instant, location: string, sun: SunOracle): (r: Result<SunTimes>)
    ensures r.Err? <==> location != AverageKey && SiteOfKey(location).None?
    ensures location == AverageKey ==> r == Ok(GetAverageSunriseSunset(t, sun))
    ensures SiteOfKey(location).Some? ==> r == Ok(GetSunriseSunset(t, SiteOfKey(location).value, sun))
  {
    if location == AverageKey then Ok(GetAverageSunriseSunset(t, sun))
    else match SiteOfKey(location)
      case None => Err("KeyError: '" + location + "'")
      case Some(site) => Ok(GetSunriseSunset(t, site, sun))
  }

  /** The half-open daylight interval: sunrise is day, sunset is night. */
  predicate InDaylight(t: Instant, s: SunTimes) {
    s.sunrise <= t < s.sunset
  }

  /** `determine_segment(dt, location, lux_data, lux_threshold)`. */
  function DetermineSegment(t: Instant, location: string, log: LuxLog, threshold: real, sun: SunOracle)
    : (r: Result<(Segment, Method)>)
    ensures var m := GetLuxReading(t, log, LuxTimeTolerance);
      m.lux.Some? ==> r == Ok((if m.lux.value >= threshold then Day else Night, LuxSensor))
    ensures var m := GetLuxReading(t, log, LuxTimeTolerance);
      m.lux.None? ==> (r.Ok? <==> SunTimesFor(t, location, sun).Ok?)
    ensures var m := GetLuxReading(t, log, LuxTimeTolerance);
      m.lux.None? && r.Ok? ==>
        r.value == (if InDaylight(t, SunTimesFor(t, location, sun).value) then Day else Night, TimeBased)
  {
    var m := GetLuxReading(t, log, LuxTimeTolerance);
    if m.lux.Some? then
      Ok((if m.lux.value >= threshold then Day else Night, LuxSensor))
    else
      var s :- SunTimesFor(t, location, sun);
      Ok((if InDaylight(t, s) then Day else Night, TimeBased))
  }

  /** Sensor precedence: once a reading lies within the tolerance, neither
      the location key nor the sun times can change the decision. */
  lemma SensorPrecedence(t: Instant, log: LuxLog, threshold: real,
                         location1: string, sun1: SunOracle, location2: string, sun2: SunOracle)
    requires exists j :: 0 <= j < |log| && Distance(t, log[j].time) <= LuxTimeTolerance * MicrosPerSecond
    ensures DetermineSegment(t, location1, log, threshold, sun1) == DetermineSegment(t, location2, log, threshold, sun2)
    ensures DetermineSegment(t, location1, log, threshold, sun1).Ok?
    ensures DetermineSegment(t, location1, log, threshold, sun1).value.1 == LuxSensor
  {
  }

  /** Without a nearby reading, the sunrise instant itself is day and the
      sunset instant itself is night, for every configured site. */
  lemma SunriseIsDaySunsetIsNight(log: LuxLog, threshold: real, site: Site, sun: SunOracle, t: Instant)
    requires forall j :: 0 <= j < |log| ==> Distance(t, log[j].time) > LuxTimeTolerance * MicrosPerSecond
    requires GetSunriseSunset(t, site, sun).sunrise < GetSunriseSunset(t, site, sun).sunset
    ensures t == GetSunriseSunset(t, site, sun).sunrise ==>
      DetermineSegment(t, Key(site), log, threshold, sun) == Ok((Day, TimeBased))
    ensures t == GetSunriseSunset(t, site, sun).sunset ==>
      DetermineSegment(t, Key(site), log, threshold, sun) == Ok((Night, TimeBased))
  {
    assert SiteOfKey(Key(site)) == Some(site) by {
      match site { case Vancouver => case CampbellRiver => case ChinaCreek => }
    }
  }

  /** The worked example: a reading of 10 lux sixty seconds before the
      capture, threshold 50, gives night by the sensor. */
  lemma SensorExample(t: Instant, location: string, sun: SunOracle)
    ensures DetermineSegment(t + 60 * MicrosPerSecond, location, [Reading(t, 10.0)], LuxThreshold, sun)
            == Ok((Night, LuxSensor))
  {
    var m := GetLuxReading(t + 60 * MicrosPerSecond, [Reading(t, 10.0)], LuxTimeTolerance);
    assert Distance(t + 60 * MicrosPerSecond, t) <= LuxTimeTolerance * MicrosPerSecond;
    var i :| Chosen(t + 60 * MicrosPerSecond, [Reading(t, 10.0)], LuxTimeTolerance * MicrosPerSecond, i)
             && m.lux.value == [Reading(t, 10.0)][i].lux;
    assert i == 0;
  }

  // ---------------------------------------------------------------------
  // `process_images`
  // ---------------------------------------------------------------------

  /** One row of the segmentation output. */
  datatype SegmentRecord = SegmentRecord(filename: string, timestampUtc: string, segment: Segment, basis: Method)

  /** A filename carrying a valid stamp: one that is classified. */
  predicate Stamped(name: string) {
    ParseTimestampFromFilename(name).Ok? && ParseTimestampFromFilename(name).value.Some?
  }

  /** The names in a listing that carry a valid stamp, in listing order. */
  function StampedNames(names: seq<string>): (r: seq<string>)
    ensures |r| <= |names|
    ensures forall k :: 0 <= k < |r| ==> Stamped(r[k])
  {
    if |names| == 0 then []
    else (if Stamped(names[0]) then [names[0]] else []) + StampedNames(names[1..])
  }

  /** The stamped names are exactly the listed names that carry a stamp. */
  lemma {:induction false} StampedNamesMembers(names: seq<string>)
    ensures forall k :: 0 <= k < |StampedNames(names)| ==> StampedNames(names)[k] in names
    ensures forall i :: 0 <= i < |names| && Stamped(names[i]) ==> names[i] in StampedNames(names)
  {
    if |names| > 0 {
      StampedNamesMembers(names[1..]);
      var rest := StampedNames(names[1..]);
      forall k | 0 <= k < |rest|
        ensures rest[k] in names
      {
        assert rest[k] in names[1..];
      }
      assert forall i :: 1 <= i < |names| ==> names[i] == names[1..][i - 1];
    }
  }

  /** No name of the listing has a stamp that fails to parse. */
  predicate AllParse(names: seq<string>) {
    forall i :: 0 <= i < |names| ==> ParseTimestampFromFilename(names[i]).Ok?
  }

  lemma AllParseCons(names: seq<string>)
    requires |names| > 0
    ensures AllParse(names) <==> ParseTimestampFromFilename(names[0]).Ok? && AllParse(names[1..])
  {
    assert forall i :: 1 <= i < |names| ==> names[i] == names[1..][i - 1];
  }

  /** One listed name goes through `process_images` without raising: its
      stamp, if any, is a valid date, and the decision for that date does
      not raise. */
  predicate Processable(name: string, location: string, log: LuxLog, threshold: real, sun: SunOracle) {
    && ParseTimestampFromFilename(name).Ok?
    && (ParseTimestampFromFilename(name).value.Some? ==>
          DetermineSegment(ToInstant(ParseTimestampFromFilename(name).value.value), location, log, threshold, sun).Ok?)
  }

  /** No name of the listing makes `process_images` raise. */
  predicate AllProcessable(names: seq<string>, location: string, log: LuxLog, threshold: real, sun: SunOracle) {
    forall i :: 0 <= i < |names| ==> Processable(names[i], location, log, threshold, sun)
  }

  lemma AllProcessableCons(names: seq<string>, location: string, log: LuxLog, threshold: real, sun: SunOracle)
    requires |names| > 0
    ensures AllProcessable(names, location, log, threshold, sun) <==>
      Processable(names[0], location, log, threshold, sun) && AllProcessable(names[1..], location, log, threshold, sun)
  {
    assert forall i :: 1 <= i < |names| ==> names[i] == names[1..][i - 1];
  }

  lemma FilenamesAppend(a: seq<SegmentRecord>, b: seq<SegmentRecord>)
    ensures Filenames(a + b) == Filenames(a) + Filenames(b)
  {
  }

  function Filenames(rs: seq<SegmentRecord>): (fs: seq<string>)
    ensures |fs| == |rs|
    ensures forall k :: 0 <= k < |rs| ==> fs[k] == rs[k].filename
  {
    seq(|rs|, k requires 0 <= k < |rs| => rs[k].filename)
  }

  /** The record of one image whose stamp parsed to `c`. */
  function Classify(name: string, c: CivilTime, location: string, log: LuxLog, threshold: real, sun: SunOracle)
    : (r: Result<SegmentRecord>)
    requires ValidCivil(c)
    ensures r.Ok? ==> r.value.filename == name && ParseIso(r.value.timestampUtc) == Some(c)
    ensures r.Ok? <==> DetermineSegment(ToInstant(c), location, log, threshold, sun).Ok?
    ensures r.Ok? ==> DetermineSegment(ToInstant(c), location, log, threshold, sun) == Ok((r.value.segment, r.value.basis))
  {
    var decision :- DetermineSegment(ToInstant(c), location, log, threshold, sun);
    IsoRoundTrip(c);
    Ok(SegmentRecord(name, IsoFormat(c), decision.0, decision.1))
  }

  /** `process_images` over a directory listing (`None` when the directory
      does not exist): names without a stamp are skipped, a stamp that is
      not a valid date aborts the run, and so does an unknown location key
      once the time-based rule is needed. */
  function ProcessImages(listing: Option<seq<string>>, location: string, log: LuxLog, threshold: real,
                         sun: SunOracle): (r: Result<seq<SegmentRecord>>)
    ensures listing.None? ==> r == Ok([])
    ensures listing.Some? && r.Ok? ==> Filenames(r.value) == StampedNames(listing.value)
    ensures listing.Some? ==> (r.Ok? ==> AllParse(listing.value))
    ensures listing.Some? ==> (r.Ok? <==> AllProcessable(listing.value, location, log, threshold, sun))
  {
    match listing
    case None => Ok([])
    case Some(names) => ProcessNames(names, location, log, threshold, sun)
  }

  /** The output rows of one listed name: none when it has no stamp. */
  function ProcessName(name: string, location: string, log: LuxLog, threshold: real,
                       sun: SunOracle): (r: Result<seq<SegmentRecord>>)
    ensures r.Ok? <==> Processable(name, location, log, threshold, sun)
    ensures r.Ok? ==> ParseTimestampFromFilename(name).Ok?
    ensures r.Ok? ==> |r.value| == (if Stamped(name) then 1 else 0)
    ensures r.Ok? && Stamped(name) ==> r.value[0].filename == name
  {
    var parsed :- ParseTimestampFromFilename(name);
    match parsed
    case None => Ok([])
    case Some(c) =>
      var rec :- Classify(name, c, location, log, threshold, sun);
      Ok([rec])
  }

  function ProcessNames(names: seq<string>, location: string, log: LuxLog, threshold: real,
                        sun: SunOracle): (r: Result<seq<SegmentRecord>>)
    ensures r.Ok? ==> Filenames(r.value) == StampedNames(names) && AllParse(names)
    ensures r.Ok? <==> AllProcessable(names, location, log, threshold, sun)
  {
    if |names| == 0 then Ok([])
    else
      AllProcessableCons(names, location, log, threshold, sun);
      var here :- ProcessName(names[0], location, log, threshold, sun);
      var rest :- ProcessNames(names[1..], location, log, threshold, sun);
      AllParseCons(names);
      FilenamesAppend(here, rest);
      assert Filenames(here) == (if Stamped(names[0]) then [names[0]] else []);
      Ok(here + rest)
  }

  /** A record carries its image's own capture time and the decision of
      `determine_segment` for that time. */
  predicate Faithful(rec: SegmentRecord, location: string, log: LuxLog, threshold: real, sun: SunOracle) {
    && Stamped(rec.filename)
    && var c := ParseTimestampFromFilename(rec.filename).value.value;
    && ParseIso(rec.timestampUtc) == Some(c)
    && DetermineSegment(ToInstant(c), location, log, threshold, sun) == Ok((rec.segment, rec.basis))
  }

  lemma ProcessNameFaithful(name: string, location: string, log: LuxLog, threshold: real, sun: SunOracle)
    requires ProcessName(name, location, log, threshold, sun).Ok?
    ensures forall k :: 0 <= k < |ProcessName(name, location, log, threshold, sun).value| ==>
      Faithful(ProcessName(name, location, log, threshold, sun).value[k], location, log, threshold, sun)
  {
    var parsed := ParseTimestampFromFilename(name);
    if parsed.value.Some? {
      var rec := Classify(name, parsed.value.value, location, log, threshold, sun);
      assert ProcessName(name, location, log, threshold, sun).value == [rec.value];
    }
  }

  /** Every image of the listing ends exactly one way: excluded for want of
      a stamp, or classified with its own capture time and the decision of
      `determine_segment` for that time. */
  lemma {:induction false} EachImageOnce(names: seq<string>, location: string, log: LuxLog, threshold: real,
                                         sun: SunOracle)
    requires ProcessNames(names, location, log, threshold, sun).Ok?
    ensures var out := ProcessNames(names, location, log, threshold, sun).value;
      forall k :: 0 <= k < |out| ==> Faithful(out[k], location, log, threshold, sun)
  {
    if |names| > 0 {
      EachImageOnce(names[1..], location, log, threshold, sun);
      ProcessNameFaithful(names[0], location, log, threshold, sun);
    }
  }
}

=== FILE: sensor_log.dfy ===
/** The optional ambient-light sensor log of the day/night segmentation:
    loading it from CSV rows and finding the reading nearest an instant.

    The log is Python's `dict` from timestamp to lux value, in insertion
    order.  Storing an instant that is already present replaces its value
    but keeps its position, which is what decides ties in the lookup.
 */
module SensorLog {
  import opened Results
  import opened Timestamps
  import opened Priority
  import opened Filters

  datatype Reading = Reading(time: Instant, lux: real)

  /** `lux_data`: readings in insertion order. */
  type LuxLog = seq<Reading>

  predicate HasTime(log: LuxLog, t: Instant) {
    exists i :: 0 <= i < |log| && log[i].time == t
  }

  predicate DistinctTimes(log: LuxLog) {
    forall i, j :: 0 <= i < j < |log| ==> log[i].time != log[j].time
  }

  // ---------------------------------------------------------------------
  // `lux_data[dt] = lux_value`
  // ---------------------------------------------------------------------

  /** Assignment into the dict: an existing key keeps its slot and takes
      the new value, a new key goes to the end. */
  function Store(log: LuxLog, t: Instant, v: real): (r: LuxLog)
    ensures HasTime(log, t) ==> |r| == |log|
    ensures !HasTime(log, t) ==> r == log + [Reading(t, v)]
    ensures forall i :: 0 <= i < |log| ==> r[i].time == log[i].time
    ensures forall i :: 0 <= i < |log| && log[i].time != t ==> r[i] == log[i]
    ensures DistinctTimes(log) ==> forall i :: 0 <= i < |r| && r[i].time == t ==> r[i].lux == v
  {
    if |log| == 0 then [Reading(t, v)]
    else if log[0].time == t then [Reading(t, v)] + log[1..]
    else [log[0]] + Store(log[1..], t, v)
  }

  /** Storing keeps the instants of the dict distinct. */
  lemma {:induction false} StoreDistinct(log: LuxLog, t: Instant, v: real)
    requires DistinctTimes(log)
    ensures DistinctTimes(Store(log, t, v))
  {
    if |log| > 0 && log[0].time != t {
      StoreDistinct(log[1..], t, v);
      var r := Store(log, t, v);
      forall i, j | 0 <= i < j < |r|
        ensures r[i].time != r[j].time
      {
        if i == 0 {
          StoreHasTime(log[1..], t, v, log[0].time);
          assert r[j] == Store(log[1..], t, v)[j - 1];
        }
      }
    }
  }

  /** The dict built by storing `readings` one after another. */
  function Build(readings: seq<Reading>): LuxLog {
    if |readings| == 0 then []
    else
      var last := readings[|readings| - 1];
      Store(Build(readings[..|readings| - 1]), last.time, last.lux)
  }

  /** Position of the first reading carrying instant `t`. */
  function FirstPos(readings: seq<Reading>, t: Instant): nat
    requires HasTime(readings, t)
  {
    var n := |readings| - 1;
    if HasTime(readings[..n], t) then FirstPos(readings[..n], t)
    else n
  }

  /** Value of the last reading carrying instant `t`. */
  function LastLux(readings: seq<Reading>, t: Instant): real
    requires HasTime(readings, t)
  {
    var n := |readings| - 1;
    if readings[n].time == t then readings[n].lux
    else LastLux(readings[..n], t)
  }

  lemma HasTimePrefix(readings: seq<Reading>, t: Instant)
    requires |readings| > 0
    ensures HasTime(readings, t) <==>
      HasTime(readings[..|readings| - 1], t) || readings[|readings| - 1].time == t
  {
    var n := |readings| - 1;
    if HasTime(readings, t) && readings[n].time != t {
      var i :| 0 <= i < |readings| && readings[i].time == t;
      assert readings[..n][i].time == t;
    }
    if HasTime(readings[..n], t) {
      var i :| 0 <= i < n && readings[..n][i].time == t;
      assert readings[i].time == t;
    }
  }

  lemma FirstPosBound(readings: seq<Reading>, t: Instant)
    requires HasTime(readings, t)
    ensures FirstPos(readings, t) < |readings| && readings[FirstPos(readings, t)].time == t
  {
    var n := |readings| - 1;
    HasTimePrefix(readings, t);
    if HasTime(readings[..n], t) {
      FirstPosBound(readings[..n], t);
    }
  }

  lemma StoreHasTime(log: LuxLog, t: Instant, v: real, u: Instant)
    ensures HasTime(Store(log, t, v), u) <==> HasTime(log, u) || u == t
  {
    var r := Store(log, t, v);
    if HasTime(log, u) {
      var i :| 0 <= i < |log| && log[i].time == u;
      assert r[i].time == u;
    }
    if u == t && !HasTime(log, t) {
      assert r[|log|].time == t;
    }
    if HasTime(r, u) && u != t {
      var i :| 0 <= i < |r| && r[i].time == u;
      assert i < |log|;
    }
  }

  lemma {:induction false} BuildDistinct(readings: seq<Reading>)
    ensures DistinctTimes(Build(readings))
  {
    if |readings| > 0 {
      var last := readings[|readings| - 1];
      BuildDistinct(readings[..|readings| - 1]);
      StoreDistinct(Build(readings[..|readings| - 1]), last.time, last.lux);
    }
  }

  lemma {:induction false} BuildHasTime(readings: seq<Reading>, t: Instant)
    ensures HasTime(Build(readings), t) <==> HasTime(readings, t)
  {
    if |readings| > 0 {
      var n := |readings| - 1;
      BuildHasTime(readings[..n], t);
      HasTimePrefix(readings, t);
      StoreHasTime(Build(readings[..n]), readings[n].time, readings[n].lux, t);
    }
  }

  lemma {:induction false} BuildValues(readings: seq<Reading>, i: nat)
    requires i < |Build(readings)|
    ensures HasTime(readings, Build(readings)[i].time)
    ensures Build(readings)[i].lux == LastLux(readings, Build(readings)[i].time)
  {
    var n := |readings| - 1;
    var p := Build(readings[..n]);
    var b := Build(readings);
    var u := b[i].time;
    BuildDistinct(readings[..n]);
    HasTimePrefix(readings, u);
    if u != readings[n].time {
      assert i < |p| && b[i] == p[i];
      BuildValues(readings[..n], i);
    }
  }

  lemma {:induction false} BuildOrder(readings: seq<Reading>, i: nat, j: nat)
    requires i < j < |Build(readings)|
    ensures HasTime(readings, Build(readings)[i].time) && HasTime(readings, Build(readings)[j].time)
    ensures FirstPos(readings, Build(readings)[i].time) < FirstPos(readings, Build(readings)[j].time)
  {
    var n := |readings| - 1;
    var pre := readings[..n];
    var p := Build(pre);
    var b := Build(readings);
    assert b[i].time == p[i].time;
    BuildValues(pre, i);
    HasTimePrefix(readings, b[i].time);
    HasTimePrefix(readings, b[j].time);
    if j < |p| {
      assert b[j].time == p[j].time;
      BuildOrder(pre, i, j);
      BuildValues(pre, j);
    } else {
      assert b == p + [Reading(readings[n].time, readings[n].lux)];
      BuildHasTime(pre, readings[n].time);
      FirstPosBound(pre, b[i].time);
    }
  }

  /** Building the dict keeps one slot per distinct instant, in order of
      first appearance, holding the value of the last appearance: a
      duplicate sensor timestamp overwrites the earlier value in place. */
  lemma BuildSemantics(readings: seq<Reading>)
    ensures var b := Build(readings);
      && DistinctTimes(b)
      && (forall t :: HasTime(b, t) <==> HasTime(readings, t))
      && (forall i :: 0 <= i < |b| ==> HasTime(readings, b[i].time) && b[i].lux == LastLux(readings, b[i].time))
      && (forall i, j :: 0 <= i < j < |b| ==>
            HasTime(readings, b[i].time) && HasTime(readings, b[j].time) &&
            FirstPos(readings, b[i].time) < FirstPos(readings, b[j].time))
  {
    BuildDistinct(readings);
    forall t
      ensures HasTime(Build(readings), t) <==> HasTime(readings, t)
    {
      BuildHasTime(readings, t);
    }
    forall i | 0 <= i < |Build(readings)|
      ensures HasTime(readings, Build(readings)[i].time)
      ensures Build(readings)[i].lux == LastLux(readings, Build(readings)[i].time)
    {
      BuildValues(readings, i);
    }
    forall i, j | 0 <= i < j < |Build(readings)|
      ensures HasTime(readings, Build(readings)[i].time) && HasTime(readings, Build(readings)[j].time)
      ensures FirstPos(readings, Build(readings)[i].time) < FirstPos(readings, Build(readings)[j].time)
    {
      BuildOrder(readings, i, j);
    }
  }

  // ---------------------------------------------------------------------
  // Reading the CSV rows
  // ---------------------------------------------------------------------

  /** A `csv.DictReader` row: header name to cell text; a row shorter than
      the header maps the missing names to `None`. */
  type CsvRow = map<string, Option<string>>

  /** Accepted timestamp headers, in the order they are tried. */
  const TimestampKeys: seq<string> := ["timestamp", "time", "datetime", "date_time"]

  /** Accepted light-level headers, in the order they are tried. */
  const LuxKeys: seq<string> := ["lux", "light", "light_level", "illuminance", "brightness"]

  datatype TimeFormat = CompactIso | SpaceSeparated | IsoWithFraction | IsoWithoutFraction {
    /** The `strptime` directive this format stands for. */
    function Directive(): string {
      match this
      case CompactIso => "%Y%m%dT%H%M%S.%fZ"
      case SpaceSeparated => "%Y-%m-%d %H:%M:%S"
      case IsoWithFraction => "%Y-%m-%dT%H:%M:%S.%fZ"
      case IsoWithoutFraction => "%Y-%m-%dT%H:%M:%SZ"
    }
  }

  /** Timestamp formats, in the order they are tried. */
  const FormatPriority: seq<TimeFormat> := [CompactIso, SpaceSeparated, IsoWithFraction, IsoWithoutFraction]

  /** `strptime(text, fmt)` read as UTC: `None` when it raises. */
  type Strptime = (string, TimeFormat) -> Option<Instant>

  /** `float(text)`: `None` when it raises. */
  type FloatParser = string -> Option<real>

  /** The cell under the first accepted header present in the row. */
  function Column(row: CsvRow, keys: seq<string>): (r: Option<Option<string>>)
    ensures r.Some? <==> exists j :: 0 <= j < |keys| && keys[j] in row
    ensures r.Some? ==> exists j :: 0 <= j < |keys| && keys[j] in row && r.value == row[keys[j]]
                                    && forall k :: 0 <= k < j ==> keys[k] !in row
  {
    match FirstSuccess(keys, (k: string) => if k in row then Some(row[k]) else None)
    case None => None
    case Some(p) => Some(p.1)
  }

  /** The instant of the first format that parses `text`. */
  function ParseSensorTime(text: string, strptime: Strptime): (r: Option<Instant>)
    ensures r.Some? <==> exists j :: 0 <= j < |FormatPriority| && strptime(text, FormatPriority[j]).Some?
    ensures r.Some? ==> exists j :: 0 <= j < |FormatPriority| && strptime(text, FormatPriority[j]) == r
                                    && forall k :: 0 <= k < j ==> strptime(text, FormatPriority[k]).None?
  {
    match FirstSuccess(FormatPriority, (f: TimeFormat) => strptime(text, f))
    case None => None
    case Some(p) => Some(p.1)
  }

  /** One row of the loop: the light value is converted as soon as its
      column is found (a missing or non-numeric cell raises), then a row
      with a non-empty timestamp is kept if some format parses it. */
  function ReadRow(row: CsvRow, parseFloat: FloatParser, strptime: Strptime): (r: Result<Option<Reading>>)
    ensures r.Err? <==> match Column(row, LuxKeys)
                        case None => false
                        case Some(cell) => cell.None? || parseFloat(cell.value).None?
    ensures r.Ok? && r.value.Some? <==>
      && Column(row, TimestampKeys).Some? && Column(row, TimestampKeys).value.Some?
      && Column(row, TimestampKeys).value.value != ""
      && Column(row, LuxKeys).Some? && Column(row, LuxKeys).value.Some?
      && parseFloat(Column(row, LuxKeys).value.value).Some?
      && ParseSensorTime(Column(row, TimestampKeys).value.value, strptime).Some?
    ensures r.Ok? && r.value.Some? ==>
      && r.value.value.time == ParseSensorTime(Column(row, TimestampKeys).value.value, strptime).value
      && Some(r.value.value.lux) == parseFloat(Column(row, LuxKeys).value.value)
  {
    var timestampText := match Column(row, TimestampKeys)
      case None => None
      case Some(cell) => cell;
    var luxValue :- match Column(row, LuxKeys)
      case None => Ok(None)
      case Some(None) => Err("float() argument must be a string or a real number, not 'NoneType'")
      case Some(Some(text)) =>
        match parseFloat(text)
        case None => Err("could not convert string to float: '" + text + "'")
        case Some(v) => Ok(Some(v));
    if timestampText.Some? && timestampText.value != "" && luxValue.Some? then
      match ParseSensorTime(timestampText.value, strptime)
      case None => Ok(None)
      case Some(t) => Ok(Some(Reading(t, luxValue.value)))
    else Ok(None)
  }

  /** No row of the file makes the loop raise. */
  predicate RowsRead(rows: seq<CsvRow>, parseFloat: FloatParser, strptime: Strptime) {
    Every(rows, (row: CsvRow) => ReadRow(row, parseFloat, strptime).Ok?)
  }

  /** The loop body as a function of the row. */
  function RowReader(parseFloat: FloatParser, strptime: Strptime): CsvRow -> Result<Option<Reading>> {
    (row: CsvRow) => ReadRow(row, parseFloat, strptime)
  }

  /** The rows that contribute a reading. */
  function RowYields(parseFloat: FloatParser, strptime: Strptime): CsvRow -> bool {
    (row: CsvRow) => Yields(ReadRow(row, parseFloat, strptime))
  }

  /** The readings of the rows in order; the first row that raises aborts. */
  function ReadRows(rows: seq<CsvRow>, parseFloat: FloatParser, strptime: Strptime): (r: Result<seq<Reading>>)
    ensures r.Ok? <==> RowsRead(rows, parseFloat, strptime)
    ensures r.Ok? ==> |r.value| <= |rows|
  {
    Gather(rows, RowReader(parseFloat, strptime))
  }

  /** The readings are those of the rows that yield one, each once and in
      file order: reading `k` comes from the `k`-th such row. */
  lemma ReadRowsInOrder(rows: seq<CsvRow>, parseFloat: FloatParser, strptime: Strptime)
    requires ReadRows(rows, parseFloat, strptime).Ok?
    ensures var out := ReadRows(rows, parseFloat, strptime).value;
            var idx := Positions(rows, RowYields(parseFloat, strptime));
      && |out| == |idx|
      && forall k :: 0 <= k < |idx| ==> ReadRow(rows[idx[k]], parseFloat, strptime) == Ok(Some(out[k]))
  {
    assert rows[0..] == rows;
    GatherPositions(rows, RowReader(parseFloat, strptime), RowYields(parseFloat, strptime), 0);
  }

  /** `load_lux_data_csv`: a missing file is an empty log, not an error. */
  function LoadLuxData(file: Option<seq<CsvRow>>, parseFloat: FloatParser, strptime: Strptime): (r: Result<LuxLog>)
    ensures file.None? ==> r == Ok([])
    ensures file.Some? ==> (r.Ok? <==> ReadRows(file.value, parseFloat, strptime).Ok?)
    ensures r.Ok? ==> DistinctTimes(r.value)
    ensures r.Ok? && file.Some? ==> r.value == Build(ReadRows(file.value, parseFloat, strptime).value)
  {
    match file
    case None => Ok([])
    case Some(rows) =>
      var readings :- ReadRows(rows, parseFloat, strptime);
      BuildSemantics(readings);
      Ok(Build(readings))
  }

  // ---------------------------------------------------------------------
  // `get_lux_reading`
  // ---------------------------------------------------------------------

  /** The shape of the lookup's return value: `(lux, diff)` or `(None, None)`.
      `diff` is the distance in microseconds. */
  datatype LuxMatch = LuxMatch(lux: Option<real>, diff: Option<int>)

  function Distance(a: Instant, b: Instant): nat {
    if a >= b then a - b else b - a
  }

  /** Reading `i` is the one the scan keeps: within the tolerance, strictly
      nearer than every earlier reading and no farther than any later one. */
  predicate Chosen(t: Instant, log: LuxLog, window: int, i: int) {
    && 0 <= i < |log|
    && Distance(t, log[i].time) <= window
    && (forall j :: 0 <= j < i ==> Distance(t, log[j].time) > Distance(t, log[i].time))
    && (forall j :: i < j < |log| ==> Distance(t, log[j].time) >= Distance(t, log[i].time))
  }

  /** The loop state after the readings before `upto`: the index it keeps. */
  predicate ScanState(t: Instant, log: LuxLog, window: int, upto: nat, best: Option<nat>)
    requires upto <= |log|
  {
    match best
    case None => forall j :: 0 <= j < upto ==> Distance(t, log[j].time) > window
    case Some(b) =>
      Chosen(t, log[..upto], window, b)
  }

  /** The loop body `if diff < min_diff and diff <= tolerance` applied to
      the readings from `i` on. */
  function Scan(t: Instant, log: LuxLog, window: int, i: nat, best: Option<nat>): (r: Option<nat>)
    requires i <= |log|
    requires ScanState(t, log, window, i, best)
    ensures ScanState(t, log, window, |log|, r)
    decreases |log| - i
  {
    if i == |log| then
      assert log[..i] == log;
      best
    else
      var d := Distance(t, log[i].time);
      var take := d <= window && (best.None? || d < Distance(t, log[best.value].time));
      var best' := if take then Some(i) else best;
      assert ScanState(t, log, window, i + 1, best') by {
        assert forall j :: 0 <= j <= i ==> log[..i + 1][j] == log[j];
        assert forall j :: 0 <= j < i ==> log[..i][j] == log[j];
      }
      Scan(t, log, window, i + 1, best')
  }

  /** `get_lux_reading(dt, lux_data, tolerance_seconds)`. */
  function GetLuxReading(t: Instant, log: LuxLog, toleranceSeconds: int): (r: LuxMatch)
    ensures r.lux.None? <==> r.diff.None?
    ensures r.lux.None? <==>
      forall j :: 0 <= j < |log| ==> Distance(t, log[j].time) > toleranceSeconds * MicrosPerSecond
    ensures r.lux.Some? ==> exists i ::
      && Chosen(t, log, toleranceSeconds * MicrosPerSecond, i)
      && r.lux.value == log[i].lux
      && r.diff.value == Distance(t, log[i].time)
  {
    if |log| == 0 then LuxMatch(None, None)
    else
      var window := toleranceSeconds * MicrosPerSecond;
      match Scan(t, log, window, 0, None)
      case None => LuxMatch(None, None)
      case Some(i) =>
        assert log[..|log|] == log;
        LuxMatch(Some(log[i].lux), Some(Distance(t, log[i].time)))
  }

  /** The chosen reading is unique: it is the first of the nearest ones. */
  lemma ChosenUnique(t: Instant, log: LuxLog, window: int, i: int, k: int)
    requires Chosen(t, log, window, i) && Chosen(t, log, window, k)
    ensures i == k
  {
  }

  /** A reading exactly at the tolerance distance is accepted; one
      microsecond farther it is not. */
  lemma ToleranceBoundary(t: Instant, r: Reading, toleranceSeconds: int)
    requires toleranceSeconds >= 0
    ensures Distance(t, r.time) == toleranceSeconds * MicrosPerSecond ==>
      GetLuxReading(t, [r], toleranceSeconds) == LuxMatch(Some(r.lux), Some(toleranceSeconds * MicrosPerSecond))
    ensures Distance(t, r.time) == toleranceSeconds * MicrosPerSecond + 1 ==>
      GetLuxReading(t, [r], toleranceSeconds) == LuxMatch(None, None)
  {
    var m := GetLuxReading(t, [r], toleranceSeconds);
    if m.lux.Some? {
      var i :| Chosen(t, [r], toleranceSeconds * MicrosPerSecond, i) && m.lux.value == [r][i].lux
                && m.diff.value == Distance(t, [r][i].time);
      assert i == 0;
    }
  }

  /** Ties go to the earlier entry of the log: with two readings equally
      near, the one stored first is returned. */
  lemma TieGoesToFirst(t: Instant, a: Reading, b: Reading, toleranceSeconds: int)
    requires Distance(t, a.time) == Distance(t, b.time) <= toleranceSeconds * MicrosPerSecond
    ensures GetLuxReading(t, [a, b], toleranceSeconds).lux == Some(a.lux)
  {
    var m := GetLuxReading(t, [a, b], toleranceSeconds);
    var i :| Chosen(t, [a, b], toleranceSeconds * MicrosPerSecond, i) && m.lux.value == [a, b][i].lux;
    assert i == 0;
  }
}

=== FILE: sequential_pipeline.dfy ===
/** `laplacian_gaussian.py`: the first 5000 grey images, batches counted by
    ceiling division, results gathered in memory and written once, then a
    pass that turns every `detected_image` cell into a link.

    Nothing is caught here: an exception from reading or detecting any
    image ends the run before the workbook is written.
 */
module SequentialPipeline {
  import opened Results
  import opened Sheets
  import opened Batching
  import opened Detection
  import ParallelPipeline

  const BatchSize: nat := 1000
  const MaxImages: nat := 5000
  const OutputImgDir: string := "./output/"

  /** `[:5000]`. */
  function Truncate(images: seq<string>): (r: seq<string>)
    ensures |r| == Min(|images|, MaxImages)
    ensures r == images[..|r|]
  {
    if |images| <= MaxImages then images else images[..MaxImages]
  }

  /** The loop body for one image: the record of a detection, or the
      exception that ends the run. */
  function DetectOne(name: string, detect: Detector, render: Render, absPath: AbsPath): (r: Result<DetectionRecord>)
    ensures r.Err? <==> detect(name).Raised?
    ensures r.Ok? ==> r.value == SuccessRecord(name, detect(name).blobs, OutputImgDir, render, absPath)
  {
    match detect(name)
    case Raised(message) => Err(message)
    case Blobs(blobs) => Ok(SuccessRecord(name, blobs, OutputImgDir, render, absPath))
  }
  /** The loop body as a function of the image name, with the detector,
      the renderer and the path resolution fixed. */
  type Step = string -> Result<DetectionRecord>

  function StepOf(detect: Detector, render: Render, absPath: AbsPath): Step {
    (name: string) => DetectOne(name, detect, render, absPath)
  }

  /** No image of the list makes the detector raise. */
  predicate NoneRaise(images: seq<string>, detect: Detector) {
    Every(images, (name: string) => detect(name).Blobs?)
  }

  /** No image of the list makes the loop body fail. */
  predicate NoneFail(images: seq<string>, one: Step) {
    Every(images, (name: string) => one(name).Ok?)
  }

  /** The loop body fails exactly on the images the detector raises on. */
  lemma NoneFailIffNoneRaise(images: seq<string>, detect: Detector, render: Render, absPath: AbsPath)
    ensures NoneFail(images, StepOf(detect, render, absPath)) <==> NoneRaise(images, detect)
  {
    var one := StepOf(detect, render, absPath);
    forall k | 0 <= k < |images|
      ensures one(images[k]).Ok? <==> detect(images[k]).Blobs?
    {
      assert one(images[k]) == DetectOne(images[k], detect, render, absPath);
    }
  }

  /** Sequencing of two stages that each may abort: the first error wins. */
  function Chain(x: Result<seq<DetectionRecord>>, y: Result<seq<DetectionRecord>>): (r: Result<seq<DetectionRecord>>)
    ensures r.Ok? <==> x.Ok? && y.Ok?
    ensures r.Ok? ==> r.value == x.value + y.value
    ensures x.Err? ==> r == x
  {
    if x.Err? then x else if y.Err? then y else Ok(x.value + y.value)
  }

  lemma ChainAssociative(x: Result<seq<DetectionRecord>>, y: Result<seq<DetectionRecord>>,
                         z: Result<seq<DetectionRecord>>)
    ensures Chain(x, Chain(y, z)) == Chain(Chain(x, y), z)
  {
    if x.Ok? && y.Ok? && z.Ok? {
      assert x.value + (y.value + z.value) == (x.value + y.value) + z.value;
    }
  }

  function Single(r: Result<DetectionRecord>): Result<seq<DetectionRecord>> {
    if r.Err? then Err(r.error) else Ok([r.value])
  }

  /** `batch_results` of one batch; the first failing image aborts. */
  function DetectBatch(batch: seq<string>, one: Step): (r: Result<seq<DetectionRecord>>)
    ensures r.Ok? <==> NoneFail(batch, one)
    ensures r.Ok? ==> |r.value| == |batch|
  {
    if |batch| == 0 then Ok([])
    else
      EveryCons(batch, (name: string) => one(name).Ok?);
      Chain(Single(one(batch[0])), DetectBatch(batch[1..], one))
  }

  /** Record `k` of a batch is the record of image `k`. */
  lemma {:induction false} DetectBatchRecords(batch: seq<string>, one: Step)
    requires DetectBatch(batch, one).Ok?
    ensures var rs := DetectBatch(batch, one).value;
      forall k :: 0 <= k < |batch| ==> Ok(rs[k]) == one(batch[k])
  {
    if |batch| > 0 {
      DetectBatchRecords(batch[1..], one);
      var rs := DetectBatch(batch, one).value;
      var rest := DetectBatch(batch[1..], one).value;
      assert rs == [one(batch[0]).value] + rest;
      forall k | 1 <= k < |batch|
        ensures Ok(rs[k]) == one(batch[k])
      {
        assert rs[k] == rest[k - 1] && batch[k] == batch[1..][k - 1];
      }
    }
  }

  /** `all_results` after the loop over the batches. */
  function Accumulate(batches: seq<seq<string>>, one: Step): Result<seq<DetectionRecord>> {
    if |batches| == 0 then Ok([])
    else Chain(DetectBatch(batches[0], one), Accumulate(batches[1..], one))
  }

  /** Detecting a concatenation is detecting its parts in order. */
  lemma {:induction false} DetectBatchAppend(a: seq<string>, b: seq<string>, one: Step)
    ensures DetectBatch(a + b, one) == Chain(DetectBatch(a, one), DetectBatch(b, one))
  {
    if |a| == 0 {
      assert a + b == b;
      var rb := DetectBatch(b, one);
      if rb.Ok? {
        assert [] + rb.value == rb.value;
      }
    } else {
      assert (a + b)[0] == a[0];
      assert (a + b)[1..] == a[1..] + b;
      DetectBatchAppend(a[1..], b, one);
      ChainAssociative(Single(one(a[0])), DetectBatch(a[1..], one), DetectBatch(b, one));
    }
  }

  /** The batch loop detects exactly the flattened batches: batching
      changes neither the records, nor their order, nor which failure
      aborts the run. */
  lemma {:induction false} AccumulateIsFlat(batches: seq<seq<string>>, one: Step)
    ensures Accumulate(batches, one) == DetectBatch(Flatten(batches), one)
  {
    if |batches| > 0 {
      AccumulateIsFlat(batches[1..], one);
      DetectBatchAppend(batches[0], Flatten(batches[1..]), one);
    }
  }

  /** `pd.DataFrame(all_results).to_excel(...)`: a new workbook; with no
      results the frame has no columns and the sheet stays empty. */
  function WriteStore(rs: seq<DetectionRecord>): (s: Sheet)
    ensures |rs| == 0 ==> s.rows == []
    ensures |rs| > 0 ==> |s.rows| == 1 + |rs| && s.rows[0] == ParallelPipeline.HeaderRow()
    ensures forall k :: 0 <= k < |rs| ==> s.rows[k + 1] == ParallelPipeline.RecordRow(rs[k])
  {
    if |rs| == 0 then Sheet(DefaultTitle, [])
    else Sheet(DefaultTitle, [ParallelPipeline.HeaderRow()] + ParallelPipeline.RecordRows(rs))
  }

  /** The link target `cell.hyperlink = value` records: a text value, or no
      link at all for an empty cell. */
  function LinkTarget(v: Value): Option<string> {
    match v
    case Text(s) => Some(s)
    case _ => None
  }

  /** The cell rewrite of this script: unconditional. */
  function AlwaysLink(cell: Cell): (r: Cell)
    ensures r.value == Text(ParallelPipeline.LinkLabel) && r.font == LinkFont
    ensures r.hyperlink == LinkTarget(cell.value)
  {
    Cell(Text(ParallelPipeline.LinkLabel), LinkTarget(cell.value), LinkFont)
  }

  /** The finishing pass of `laplacian_gaussian.py`. */
  function FinishSequential(sheet: Sheet): (r: Sheet)
    ensures r.title == sheet.title && |r.rows| == |sheet.rows|
    ensures ParallelPipeline.FindColumn(ParallelPipeline.HeaderOf(sheet), ParallelPipeline.LinkColumn).None? ==> r == sheet
    ensures |sheet.rows| > 0 ==> r.rows[0] == sheet.rows[0]
  {
    match ParallelPipeline.FindColumn(ParallelPipeline.HeaderOf(sheet), ParallelPipeline.LinkColumn)
    case None => sheet
    case Some(col) => ParallelPipeline.RewriteColumn(sheet, col, AlwaysLink)
  }

  /** Every data cell of the `detected_image` column becomes "View Image"
      linking to its previous value, whether or not that value is a path. */
  lemma FinishSequentialCells(sheet: Sheet, k: nat)
    requires 1 <= k < |sheet.rows|
    requires ParallelPipeline.FindColumn(ParallelPipeline.HeaderOf(sheet), ParallelPipeline.LinkColumn).Some?
    ensures var col := ParallelPipeline.FindColumn(ParallelPipeline.HeaderOf(sheet), ParallelPipeline.LinkColumn).value;
      var row := FinishSequential(sheet).rows[k];
      && RowCell(row, col) == Cell(Text(ParallelPipeline.LinkLabel), LinkTarget(RowCell(sheet.rows[k], col).value), LinkFont)
      && forall j :: 1 <= j <= |row| && j != col ==> RowCell(row, j) == RowCell(sheet.rows[k], j)
  {
  }

  /** The pass is not idempotent: run twice, every data cell of the column
      links to the text "View Image" instead of the image. */
  lemma FinishSequentialTwiceRetargets(sheet: Sheet, k: nat)
    requires 1 <= k < |sheet.rows|
    requires ParallelPipeline.FindColumn(ParallelPipeline.HeaderOf(sheet), ParallelPipeline.LinkColumn).Some?
    ensures var col := ParallelPipeline.FindColumn(ParallelPipeline.HeaderOf(sheet), ParallelPipeline.LinkColumn).value;
      RowCell(FinishSequential(FinishSequential(sheet)).rows[k], col).hyperlink == Some(ParallelPipeline.LinkLabel)
  {
    var once := FinishSequential(sheet);
    assert ParallelPipeline.HeaderOf(once) == ParallelPipeline.HeaderOf(sheet);
    FinishSequentialCells(sheet, k);
    FinishSequentialCells(once, k);
  }

  /** The batched loop over at most 5000 images gives the same outcome as
      detecting the images one after another. */
  lemma BatchedIsFlat(images: seq<string>, one: Step)
    ensures Accumulate(CeilBatches(images, BatchSize), one) == DetectBatch(images, one)
  {
    CeilBatchesPartition(images, BatchSize);
    AccumulateIsFlat(CeilBatches(images, BatchSize), one);
  }

  /** `all_results` after a run that was not aborted: one record per image,
      in input order, each the record of that image's detection. */
  lemma AccumulateFollowsInput(images: seq<string>, detect: Detector, render: Render, absPath: AbsPath)
    requires Accumulate(CeilBatches(images, BatchSize), StepOf(detect, render, absPath)).Ok?
    ensures var rs := Accumulate(CeilBatches(images, BatchSize), StepOf(detect, render, absPath)).value;
      && |rs| == |images|
      && forall k :: 0 <= k < |images| ==>
           detect(images[k]).Blobs?
           && rs[k] == SuccessRecord(images[k], detect(images[k]).blobs, OutputImgDir, render, absPath)
  {
    var one := StepOf(detect, render, absPath);
    BatchedIsFlat(images, one);
    DetectBatchRecords(images, one);
    var rs := DetectBatch(images, one).value;
    forall k | 0 <= k < |images|
      ensures detect(images[k]).Blobs?
      ensures rs[k] == SuccessRecord(images[k], detect(images[k]).blobs, OutputImgDir, render, absPath)
    {
      assert Ok(rs[k]) == one(images[k]) == DetectOne(images[k], detect, render, absPath);
    }
  }

  /** The workbook the script leaves behind for a list of images. */
  function Workbook(images: seq<string>, detect: Detector, render: Render, absPath: AbsPath): (r: Result<Sheet>)
    ensures r.Ok? <==> NoneRaise(images, detect)
    ensures r.Ok? ==> |r.value.rows| == if |images| == 0 then 0 else 1 + |images|
  {
    var one := StepOf(detect, render, absPath);
    BatchedIsFlat(images, one);
    NoneFailIffNoneRaise(images, detect, render, absPath);
    var rs :- Accumulate(CeilBatches(images, BatchSize), one);
    Ok(FinishSequential(WriteStore(rs)))
  }

  /** The script after its configuration: an error means the run was
      aborted and no workbook was written. */
  function RunSequential(csvRows: seq<(string, bool)>, detect: Detector, render: Render, absPath: AbsPath)
    : (r: Result<Sheet>)
    ensures var images := Truncate(ParallelPipeline.GreyImages(csvRows));
      r.Ok? <==> NoneRaise(images, detect)
  {
    Workbook(Truncate(ParallelPipeline.GreyImages(csvRows)), detect, render, absPath)
  }

  /** Row `k + 2` of the finished workbook belongs to the `k`-th image, and
      its `detected_image` cell links to that image's annotated copy. */
  lemma WorkbookLinks(images: seq<string>, detect: Detector, render: Render, absPath: AbsPath, k: nat)
    requires Workbook(images, detect, render, absPath).Ok?
    requires k < |images|
    ensures var row := Workbook(images, detect, render, absPath).value.rows[k + 1];
      && RowCell(row, 1) == Cell(Text(images[k]), None, DefaultFont)
      && RowCell(row, 3) == Cell(Text(ParallelPipeline.LinkLabel),
                                 Some(ArtifactPath(OutputImgDir, images[k], absPath)), LinkFont)
  {
    var one := StepOf(detect, render, absPath);
    WorkbookIsFinishedStore(images, detect, render, absPath);
    DetectBatchRecords(images, one);
    var rs := DetectBatch(images, one).value;
    assert rs[k] == SuccessRecord(images[k], detect(images[k]).blobs, OutputImgDir, render, absPath) by {
      assert Ok(rs[k]) == one(images[k]) == DetectOne(images[k], detect, render, absPath);
    }
    FinishedStoreRow(rs, k);
  }

  /** In the finished workbook of any records, row `k + 2` starts with the
      `k`-th image and links to its annotated copy, when it has one. */
  lemma FinishedStoreRow(rs: seq<DetectionRecord>, k: nat)
    requires k < |rs|
    ensures var row := FinishSequential(WriteStore(rs)).rows[k + 1];
      && RowCell(row, 1) == Cell(Text(rs[k].image), None, DefaultFont)
      && (rs[k].detectedImage.Some? ==>
            RowCell(row, 3) == Cell(Text(ParallelPipeline.LinkLabel), rs[k].detectedImage, LinkFont))
  {
    var store := WriteStore(rs);
    assert store.rows[k + 1] == ParallelPipeline.RecordRow(rs[k]);
    assert ParallelPipeline.HeaderOf(store) == ParallelPipeline.HeaderRow();
    ParallelPipeline.LinkColumnOfHeader();
    FinishSequentialCells(store, k + 1);
  }

  lemma WorkbookIsFinishedStore(images: seq<string>, detect: Detector, render: Render, absPath: AbsPath)
    requires Workbook(images, detect, render, absPath).Ok?
    ensures DetectBatch(images, StepOf(detect, render, absPath)).Ok?
    ensures Workbook(images, detect, render, absPath).value
         == FinishSequential(WriteStore(DetectBatch(images, StepOf(detect, render, absPath)).value))
  {
    BatchedIsFlat(images, StepOf(detect, render, absPath));
  }
}

=== FILE: sheets.dfy ===
/** The spreadsheet store the detection scripts write and the sampler
    reads: a worksheet of rows of cells, where a cell holds a scalar value
    and may carry a hyperlink and a font.

    Rows and columns are numbered from 1 as in openpyxl.  A cell outside the
    rows or beyond the end of its row reads as an empty cell, and the
    dimensions of a sheet with no cells are 1 x 1, as openpyxl reports them.
 */
module Sheets {
  import opened Results

  datatype Value = Blank | Text(text: string) | Number(number: int)

  /** Python truthiness of a cell value. */
  predicate Truthy(v: Value) {
    match v
    case Blank => false
    case Text(s) => s != ""
    case Number(n) => n != 0
  }

  /** The fonts the scripts distinguish: openpyxl's default, the bold header
      pandas writes, the blue underlined link style, and any other. */
  datatype Font = DefaultFont | HeaderFont | LinkFont | OtherFont(id: nat)

  datatype Cell = Cell(value: Value, hyperlink: Option<string>, font: Font)

  const EmptyCell: Cell := Cell(Blank, None, DefaultFont)

  type Row = seq<Cell>

  datatype Sheet = Sheet(title: string, rows: seq<Row>)

  /** The title pandas gives the sheet it writes. */
  const DefaultTitle: string := "Sheet1"

  /** `ws.cell(row=r, column=c)` as read. */
  function CellAt(sheet: Sheet, r: nat, c: nat): Cell {
    if 1 <= r <= |sheet.rows| && 1 <= c <= |sheet.rows[r - 1]| then sheet.rows[r - 1][c - 1]
    else EmptyCell
  }

  function RowCell(row: Row, c: nat): Cell {
    if 1 <= c <= |row| then row[c - 1] else EmptyCell
  }

  /** `ws.max_row`. */
  function MaxRow(sheet: Sheet): (n: nat)
    ensures n >= 1 && n >= |sheet.rows|
  {
    if |sheet.rows| == 0 then 1 else |sheet.rows|
  }

  function Widest(rows: seq<Row>): (w: nat)
    ensures forall i :: 0 <= i < |rows| ==> |rows[i]| <= w
  {
    if |rows| == 0 then 0
    else var w := Widest(rows[1..]); if |rows[0]| > w then |rows[0]| else w
  }

  /** `ws.max_column`. */
  function MaxColumn(sheet: Sheet): (n: nat)
    ensures n >= 1
    ensures forall i :: 0 <= i < |sheet.rows| ==> |sheet.rows[i]| <= n
  {
    var w := Widest(sheet.rows);
    if w == 0 then 1 else w
  }

  /** Assigning column `c` of a row; a short row is first filled with
      empty cells, as openpyxl creates the cells it is asked for. */
  function SetCell(row: Row, c: nat, cell: Cell): (r: Row)
    requires c >= 1
    ensures |r| == if |row| >= c then |row| else c
    ensures RowCell(r, c) == cell
    ensures forall j :: 1 <= j <= |r| && j != c ==> RowCell(r, j) == RowCell(row, j)
  {
    var padded := if |row| >= c then row else row + seq(c - |row|, _ => EmptyCell);
    padded[c - 1 := cell]
  }
}

=== FILE: sun.dfy ===
/** Sunrise and sunset for the configured sites, and their three-site
    average.

    The astronomical computation itself (`astral.sun`) is an oracle: a
    function from a UTC date and a site's coordinates to that day's sunrise
    and sunset instants.
 */
module Sun {
  import opened Results
  import opened Timestamps

  datatype Site = Vancouver | CampbellRiver | ChinaCreek

  datatype LocationInfo = LocationInfo(name: string, region: string, timezone: string,
                                       latitude: real, longitude: real)

  /** `get_location_info`: the fixed reference data of each site. */
  function Info(site: Site): LocationInfo {
    match site
    case Vancouver => LocationInfo("Vancouver", "BC, Canada", "America/Vancouver", 49.2827, -123.1207)
    case CampbellRiver => LocationInfo("Campbell River", "BC, Canada", "America/Vancouver", 50.0163, -125.2447)
    case ChinaCreek => LocationInfo("China Creek (Port Alberni)", "BC, Canada", "America/Vancouver", 49.2394, -124.8053)
  }

  /** The configuration key of each site. */
  function Key(site: Site): string {
    match site
    case Vancouver => "vancouver"
    case CampbellRiver => "campbell_river"
    case ChinaCreek => "china_creek"
  }

  /** The dictionary lookup of `get_location_info`; `None` is its `KeyError`. */
  function SiteOfKey(key: string): (r: Option<Site>)
    ensures r.Some? ==> Key(r.value) == key
    ensures r.None? ==> forall s: Site :: Key(s) != key
  {
    if key == "vancouver" then Some(Vancouver)
    else if key == "campbell_river" then Some(CampbellRiver)
    else if key == "china_creek" then Some(ChinaCreek)
    else None
  }

  /** The sites averaged by `get_average_sunrise_sunset`, in order. */
  const AverageSites: seq<Site> := [Vancouver, CampbellRiver, ChinaCreek]

  datatype SunTimes = SunTimes(sunrise: Instant, sunset: Instant)

  /** `sun(observer, date=day)` for the UTC day number `day`. */
  type SunOracle = (int, LocationInfo) -> SunTimes

  /** `get_sunrise_sunset`: the site's times on the capture instant's UTC
      date, with a sunset earlier than sunrise moved one day later. */
  function GetSunriseSunset(t: Instant, site: Site, sun: SunOracle): (r: SunTimes)
    ensures var raw := sun(UtcDay(t), Info(site));
      && r.sunrise == raw.sunrise
      && (r.sunset == raw.sunset || r.sunset == raw.sunset + MicrosPerDay)
      && (r.sunset == raw.sunset <==> raw.sunrise <= raw.sunset)
      && (raw.sunrise - MicrosPerDay <= raw.sunset ==> r.sunrise <= r.sunset)
  {
    var raw := sun(UtcDay(t), Info(site));
    if raw.sunset < raw.sunrise then SunTimes(raw.sunrise, raw.sunset + MicrosPerDay)
    else raw
  }

  /** The mean of three instants, rounded down: the largest `m` with
      `3 * m` not above the sum. */
  function Mean3(a: int, b: int, c: int): (m: int)
    ensures 3 * m <= a + b + c < 3 * m + 3
    ensures Min3(a, b, c) <= m <= Max3(a, b, c)
    ensures a == b == c ==> m == a
  {
    (a + b + c) / 3
  }

  function Min3(a: int, b: int, c: int): int {
    if a <= b && a <= c then a else if b <= c then b else c
  }

  function Max3(a: int, b: int, c: int): int {
    if a >= b && a >= c then a else if b >= c then b else c
  }

  /** `get_average_sunrise_sunset`: the instant-wise mean over the three
      sites, rounded down to a whole microsecond. */
  function GetAverageSunriseSunset(t: Instant, sun: SunOracle): (r: SunTimes)
    ensures var v := GetSunriseSunset(t, Vancouver, sun);
            var c := GetSunriseSunset(t, CampbellRiver, sun);
            var p := GetSunriseSunset(t, ChinaCreek, sun);
      && 3 * r.sunrise <= v.sunrise + c.sunrise + p.sunrise < 3 * r.sunrise + 3
      && 3 * r.sunset <= v.sunset + c.sunset + p.sunset < 3 * r.sunset + 3
      && Min3(v.sunrise, c.sunrise, p.sunrise) <= r.sunrise <= Max3(v.sunrise, c.sunrise, p.sunrise)
      && Min3(v.sunset, c.sunset, p.sunset) <= r.sunset <= Max3(v.sunset, c.sunset, p.sunset)
      && (v.sunrise <= v.sunset && c.sunrise <= c.sunset && p.sunrise <= p.sunset ==> r.sunrise <= r.sunset)
  {
    var all := seq(3, k requires 0 <= k < 3 => GetSunriseSunset(t, AverageSites[k], sun));
    SunTimes(Mean3(all[0].sunrise, all[1].sunrise, all[2].sunrise),
             Mean3(all[0].sunset, all[1].sunset, all[2].sunset))
  }
}

=== FILE: timestamps.dfy ===
/** Capture instants: calendar validity, conversion to epoch microseconds,
    the compact `YYYYMMDDTHHMMSS.mmmZ` stamp embedded in image filenames, and
    the ISO-8601 rendering written to the segmentation output.

    A Python `datetime` tagged UTC is modelled as a `CivilTime` (its fields);
    its position on the time line is `ToInstant`, an integer count of
    microseconds since 1970-01-01T00:00:00Z (microseconds being the
    resolution of `datetime`).
 */
module Timestamps {
  import opened Results

  /** Microseconds since the Unix epoch, UTC. */
  type Instant = int

  const MicrosPerSecond: int := 1_000_000
  const MicrosPerDay: int := 86_400 * MicrosPerSecond

  datatype CivilTime = CivilTime(year: int, month: int, day: int,
                                 hour: int, minute: int, second: int, micro: int)

  predicate IsLeapYear(y: int) {
    y % 4 == 0 && (y % 100 != 0 || y % 400 == 0)
  }

  function DaysInMonth(y: int, m: int): (n: int)
    requires 1 <= m <= 12
    ensures 28 <= n <= 31
    ensures m == 2 ==> (n == 29 <==> IsLeapYear(y))
  {
    if m == 2 then (if IsLeapYear(y) then 29 else 28)
    else if m == 4 || m == 6 || m == 9 || m == 11 then 30
    else 31
  }

  /** The values `datetime(...)` accepts: years 1..9999 and in-range fields. */
  predicate ValidCivil(c: CivilTime) {
    && 1 <= c.year <= 9999
    && 1 <= c.month <= 12
    && 1 <= c.day <= DaysInMonth(c.year, c.month)
    && 0 <= c.hour < 24
    && 0 <= c.minute < 60
    && 0 <= c.second < 60
    && 0 <= c.micro < MicrosPerSecond
  }

  /** Days from 1970-01-01 to the given proleptic Gregorian date
      (the usual era-of-400-years computation). */
  function DaysFromCivil(y: int, m: int, d: int): int
    requires 1 <= m <= 12
  {
    var y' := if m <= 2 then y - 1 else y;
    var era := y' / 400;
    var yoe := y' - era * 400;
    var doy := (153 * (if m > 2 then m - 3 else m + 9) + 2) / 5 + d - 1;
    var doe := yoe * 365 + yoe / 4 - yoe / 100 + doy;
    era * 146097 + doe - 719468
  }

  function TimeOfDay(c: CivilTime): int {
    ((c.hour * 60 + c.minute) * 60 + c.second) * MicrosPerSecond + c.micro
  }

  function ToInstant(c: CivilTime): Instant
    requires 1 <= c.month <= 12
  {
    DaysFromCivil(c.year, c.month, c.day) * MicrosPerDay + TimeOfDay(c)
  }

  /** `dt.date()` of a UTC instant, as a day number since the epoch. */
  function UtcDay(t: Instant): int {
    t / MicrosPerDay
  }

  lemma TimeOfDayBounds(c: CivilTime)
    requires ValidCivil(c)
    ensures 0 <= TimeOfDay(c) < MicrosPerDay
  {
    var s := (c.hour * 60 + c.minute) * 60 + c.second;
    assert 0 <= s < 86_400;
    assert TimeOfDay(c) == s * MicrosPerSecond + c.micro;
    assert s * MicrosPerSecond <= 86_399 * MicrosPerSecond;
  }

  /** The day used for the sunrise/sunset lookup of a valid capture time is
      its own calendar date: the time of day never spills into another day. */
  lemma UtcDayOfCivil(c: CivilTime)
    requires ValidCivil(c)
    ensures UtcDay(ToInstant(c)) == DaysFromCivil(c.year, c.month, c.day)
  {
    TimeOfDayBounds(c);
    var D := DaysFromCivil(c.year, c.month, c.day);
    DivOfMultiplePlus(D, MicrosPerDay, TimeOfDay(c));
  }

  lemma DivOfMultiplePlus(q: int, n: int, r: int)
    requires 0 < n && 0 <= r < n
    ensures (q * n + r) / n == q
  {
    var z := (q * n + r) / n;
    var m := (q * n + r) % n;
    assert (z - q) * n == r - m;
    if z > q {
      MulAtLeast(z - q, n);
    } else if z < q {
      MulAtLeast(q - z, n);
    }
  }

  lemma MulAtLeast(a: int, n: int)
    requires a >= 1 && n > 0
    ensures a * n >= n
  {
  }

  /** A slice of a slice is a slice of the original. */
  lemma SliceOfSlice(s: string, a: nat, b: nat, c: nat, d: nat)
    requires a <= b <= |s| && c <= d <= b - a
    ensures s[a..b][c..d] == s[a + c..a + d]
  {
    assert |s[a..b][c..d]| == |s[a + c..a + d]|;
    forall k | 0 <= k < d - c
      ensures s[a..b][c..d][k] == s[a + c..a + d][k]
    {
    }
  }

  // ---------------------------------------------------------------------
  // Decimal digits
  // ---------------------------------------------------------------------

  predicate IsDigit(ch: char) {
    '0' <= ch <= '9'
  }

  predicate AllDigits(s: string) {
    forall k :: 0 <= k < |s| ==> IsDigit(s[k])
  }

  function Pow10(w: nat): (p: nat)
    ensures p >= 1
  {
    if w == 0 then 1 else 10 * Pow10(w - 1)
  }

  /** The value of a string of decimal digits, as `int(...)` reads it. */
  function ParseNat(s: string): nat
    requires AllDigits(s)
  {
    if |s| == 0 then 0
    else ParseNat(s[..|s| - 1]) * 10 + (s[|s| - 1] - '0') as int
  }

  /** `n` written with exactly `w` digits, zero-padded (`%0wd`). */
  function Digits(n: nat, w: nat): (s: string)
    ensures |s| == w
    ensures AllDigits(s)
  {
    if w == 0 then ""
    else Digits(n / 10, w - 1) + [('0' as int + n % 10) as char]
  }

  lemma {:induction false} ParseNatBound(s: string)
    requires AllDigits(s)
    ensures ParseNat(s) < Pow10(|s|)
  {
    if |s| > 0 {
      ParseNatBound(s[..|s| - 1]);
    }
  }

  /** Reading back a zero-padded rendering gives the number. */
  lemma {:induction false} ParseDigits(n: nat, w: nat)
    requires n < Pow10(w)
    ensures ParseNat(Digits(n, w)) == n
  {
    if w > 0 {
      var s := Digits(n, w);
      var p := Pow10(w - 1);
      assert n / 10 < p by {
        assert n < 10 * p;
      }
      assert s[..|s| - 1] == Digits(n / 10, w - 1);
      assert (s[|s| - 1] - '0') as int == n % 10;
      ParseDigits(n / 10, w - 1);
      assert ParseNat(s) == (n / 10) * 10 + n % 10;
    }
  }

  /** Rendering a digit string's value at its own width gives the string. */
  lemma {:induction false} DigitsOfParse(s: string)
    requires AllDigits(s)
    ensures Digits(ParseNat(s), |s|) == s
  {
    if |s| > 0 {
      var p := s[..|s| - 1];
      DigitsOfParse(p);
      var n := ParseNat(s);
      assert n / 10 == ParseNat(p);
      assert n % 10 == (s[|s| - 1] - '0') as int;
    }
  }

  // ---------------------------------------------------------------------
  // The filename stamp: `_(\d{8}T\d{6}\.\d{3}Z)\.`
  // ---------------------------------------------------------------------

  /** Length of a whole match of the filename pattern, underscore to dot. */
  const MatchLength: nat := 22

  /** The pattern matches `name` starting at index `i`. */
  predicate MatchesAt(name: string, i: nat) {
    && i + MatchLength <= |name|
    && name[i] == '_'
    && AllDigits(name[i + 1..i + 9])
    && name[i + 9] == 'T'
    && AllDigits(name[i + 10..i + 16])
    && name[i + 16] == '.'
    && AllDigits(name[i + 17..i + 20])
    && name[i + 20] == 'Z'
    && name[i + 21] == '.'
  }

  /** The leftmost match at or after `from`, as `re.search` finds it. */
  function FindMatch(name: string, from: nat): (r: Option<nat>)
    requires from <= |name|
    ensures r.Some? ==> from <= r.value && MatchesAt(name, r.value)
    ensures r.Some? ==> forall j :: from <= j < r.value ==> !MatchesAt(name, j)
    ensures r.None? ==> forall j :: from <= j <= |name| ==> !MatchesAt(name, j)
    decreases |name| - from
  {
    if from + MatchLength > |name| then None
    else if MatchesAt(name, from) then Some(from)
    else FindMatch(name, from + 1)
  }

  /** The text of the capture group, `YYYYMMDDTHHMMSS.mmmZ`, of a valid
      time with millisecond precision. */
  function CompactText(c: CivilTime): (s: string)
    requires ValidCivil(c)
    ensures |s| == MatchLength - 2
  {
    Digits(c.year, 4) + Digits(c.month, 2) + Digits(c.day, 2) + "T"
    + Digits(c.hour, 2) + Digits(c.minute, 2) + Digits(c.second, 2) + "."
    + Digits(c.micro / 1000, 3) + "Z"
  }

  /** The fields `strptime(g, '%Y%m%dT%H%M%S.%fZ')` reads from a capture
      group: with exactly eight and six digits every field has fixed width,
      and three fractional digits are milliseconds. */
  function CompactFields(g: string): CivilTime
    requires |g| == MatchLength - 2
    requires AllDigits(g[0..8]) && AllDigits(g[9..15]) && AllDigits(g[16..19])
  {
    SliceOfSlice(g, 0, 8, 0, 4);
    SliceOfSlice(g, 0, 8, 4, 6);
    SliceOfSlice(g, 0, 8, 6, 8);
    SliceOfSlice(g, 9, 15, 0, 2);
    SliceOfSlice(g, 9, 15, 2, 4);
    SliceOfSlice(g, 9, 15, 4, 6);
    CivilTime(ParseNat(g[0..4]), ParseNat(g[4..6]), ParseNat(g[6..8]),
              ParseNat(g[9..11]), ParseNat(g[11..13]), ParseNat(g[13..15]),
              ParseNat(g[16..19]) * 1000)
  }

  /** `parse_timestamp_from_filename`: no match gives `None`; a match whose
      fields are not a valid date and time makes `strptime` raise. */
  function ParseTimestampFromFilename(name: string): (r: Result<Option<CivilTime>>)
    ensures r == Ok(None) <==> forall j :: 0 <= j <= |name| ==> !MatchesAt(name, j)
    ensures r.Ok? && r.value.Some? ==> ValidCivil(r.value.value) && r.value.value.micro % 1000 == 0
  {
    match FindMatch(name, 0)
    case None => Ok(None)
    case Some(i) =>
      var g := name[i + 1..i + 21];
      SliceOfSlice(name, i + 1, i + 21, 0, 8);
      SliceOfSlice(name, i + 1, i + 21, 9, 15);
      SliceOfSlice(name, i + 1, i + 21, 16, 19);
      var c := CompactFields(g);
      if ValidCivil(c) then Ok(Some(c))
      else Err("time data '" + g + "' does not match format '%Y%m%dT%H%M%S.%fZ'")
  }

  lemma CompactTextShape(c: CivilTime)
    requires ValidCivil(c)
    ensures var s := CompactText(c);
      && s[0..4] == Digits(c.year, 4) && s[4..6] == Digits(c.month, 2) && s[6..8] == Digits(c.day, 2)
      && s[8] == 'T'
      && s[9..11] == Digits(c.hour, 2) && s[11..13] == Digits(c.minute, 2) && s[13..15] == Digits(c.second, 2)
      && s[15] == '.' && s[16..19] == Digits(c.micro / 1000, 3) && s[19] == 'Z'
  {
  }

  /** The date digits of a rendered stamp read back as the date. */
  lemma CompactDate(c: CivilTime)
    requires ValidCivil(c) && c.micro % 1000 == 0
    ensures var s := CompactText(c);
      && AllDigits(s[0..8])
      && ParseNat(s[0..4]) == c.year && ParseNat(s[4..6]) == c.month && ParseNat(s[6..8]) == c.day
  {
    var s := CompactText(c);
    CompactTextShape(c);
    DigitField(s, 0, 4, c.year);
    DigitField(s, 4, 6, c.month);
    DigitField(s, 6, 8, c.day);
    AllDigitsJoin(s, 0, 4, 6);
    AllDigitsJoin(s, 0, 6, 8);
  }

  /** The time-of-day digits of a rendered stamp read back as that time. */
  lemma CompactClock(c: CivilTime)
    requires ValidCivil(c) && c.micro % 1000 == 0
    ensures var s := CompactText(c);
      && AllDigits(s[9..15]) && AllDigits(s[16..19])
      && ParseNat(s[9..11]) == c.hour && ParseNat(s[11..13]) == c.minute && ParseNat(s[13..15]) == c.second
      && ParseNat(s[16..19]) * 1000 == c.micro
  {
    var s := CompactText(c);
    CompactTextShape(c);
    DigitField(s, 9, 11, c.hour);
    DigitField(s, 11, 13, c.minute);
    DigitField(s, 13, 15, c.second);
    DigitField(s, 16, 19, c.micro / 1000);
    AllDigitsJoin(s, 9, 11, 13);
    AllDigitsJoin(s, 9, 13, 15);
  }

  /** Reading the fields back from a rendered stamp gives the time. */
  lemma CompactRoundTrip(c: CivilTime)
    requires ValidCivil(c) && c.micro % 1000 == 0
    ensures var s := CompactText(c);
      AllDigits(s[0..8]) && AllDigits(s[9..15]) && AllDigits(s[16..19]) && CompactFields(s) == c
  {
    CompactDate(c);
    CompactClock(c);
  }

  /** A field rendered at its width reads back as its value. */
  lemma DigitField(s: string, a: nat, b: nat, n: nat)
    requires a <= b <= |s| && n < Pow10(b - a) && s[a..b] == Digits(n, b - a)
    ensures AllDigits(s[a..b]) && ParseNat(s[a..b]) == n
  {
    ParseDigits(n, b - a);
  }

  lemma AllDigitsJoin(s: string, a: nat, b: nat, c: nat)
    requires a <= b <= c <= |s| && AllDigits(s[a..b]) && AllDigits(s[b..c])
    ensures AllDigits(s[a..c])
  {
    forall k | 0 <= k < c - a
      ensures IsDigit(s[a..c][k])
    {
      if k < b - a {
        assert s[a..c][k] == s[a..b][k];
      } else {
        assert s[a..c][k] == s[b..c][k - (b - a)];
      }
    }
  }

  /** A name that starts with an underscore, a rendered stamp and a dot
      matches the pattern at its first character. */
  lemma StampAtStart(c: CivilTime, ext: string)
    requires ValidCivil(c) && c.micro % 1000 == 0
    ensures var name := "_" + CompactText(c) + "." + ext;
      MatchesAt(name, 0) && name[1..21] == CompactText(c)
  {
    var name := "_" + CompactText(c) + "." + ext;
    var s := CompactText(c);
    assert AllDigits(s[0..8]) && AllDigits(s[9..15]) && AllDigits(s[16..19]) by {
      CompactRoundTrip(c);
    }
    assert s[8] == 'T' && s[15] == '.' && s[19] == 'Z' by {
      CompactTextShape(c);
    }
    assert name[1..21] == s;
    assert name[0] == '_' && name[21] == '.';
    SliceOfSlice(name, 1, 21, 0, 8);
    SliceOfSlice(name, 1, 21, 9, 15);
    SliceOfSlice(name, 1, 21, 16, 19);
    assert name[9] == s[8] && name[16] == s[15] && name[20] == s[19];
  }

  lemma MatchAtStart(name: string)
    requires MatchesAt(name, 0)
    ensures FindMatch(name, 0) == Some(0)
  {
  }

  /** The filename parser recovers any valid millisecond-precision time from
      a name that carries it as its first stamp. */
  lemma ParseFilenameRoundTrip(c: CivilTime, ext: string)
    requires ValidCivil(c) && c.micro % 1000 == 0
    ensures ParseTimestampFromFilename("_" + CompactText(c) + "." + ext) == Ok(Some(c))
  {
    var name := "_" + CompactText(c) + "." + ext;
    StampAtStart(c, ext);
    MatchAtStart(name);
    var g := name[1..21];
    assert CompactFields(g) == c by {
      CompactRoundTrip(c);
    }
  }

  /** Whether the pattern matches after a prefix depends only on what
      follows the prefix. */
  lemma MatchesAfterPrefix(p: string, rest: string, i: nat)
    ensures MatchesAt(p + rest, |p| + i) <==> MatchesAt(rest, i)
  {
    var name := p + rest;
    var n := |p| + i;
    if i + MatchLength <= |rest| {
      assert name[n + 1..n + 9] == rest[i + 1..i + 9];
      assert name[n + 10..n + 16] == rest[i + 10..i + 16];
      assert name[n + 17..n + 20] == rest[i + 17..i + 20];
      assert name[n] == rest[i] && name[n + 9] == rest[i + 9] && name[n + 16] == rest[i + 16];
      assert name[n + 20] == rest[i + 20] && name[n + 21] == rest[i + 21];
    }
  }

  /** The parser recovers a valid millisecond-precision time from any name
      that carries it after a prefix in which no match starts: whatever the
      camera or site prefix, the first stamp is the one read. */
  lemma ParsePrefixedStamp(p: string, c: CivilTime, ext: string)
    requires ValidCivil(c) && c.micro % 1000 == 0
    requires forall j :: 0 <= j < |p| ==> !MatchesAt(p + "_" + CompactText(c) + "." + ext, j)
    ensures ParseTimestampFromFilename(p + "_" + CompactText(c) + "." + ext) == Ok(Some(c))
  {
    var rest := "_" + CompactText(c) + "." + ext;
    var name := p + rest;
    assert name == p + "_" + CompactText(c) + "." + ext;
    assert rest[1..21] == CompactText(c) && MatchesAt(rest, 0) by {
      StampAtStart(c, ext);
    }
    assert FindMatch(name, 0) == Some(|p|) by {
      MatchesAfterPrefix(p, rest, 0);
    }
    assert name[|p| + 1..|p| + 21] == CompactText(c);
    assert CompactFields(CompactText(c)) == c by {
      CompactRoundTrip(c);
    }
  }

  /** In particular a prefix without an underscore never hides the stamp. */
  lemma ParseStampAfterPlainPrefix(p: string, c: CivilTime, ext: string)
    requires ValidCivil(c) && c.micro % 1000 == 0
    requires '_' !in p
    ensures ParseTimestampFromFilename(p + "_" + CompactText(c) + "." + ext) == Ok(Some(c))
  {
    var name := p + "_" + CompactText(c) + "." + ext;
    forall j | 0 <= j < |p|
      ensures !MatchesAt(name, j)
    {
      assert name[j] == p[j];
    }
    ParsePrefixedStamp(p, c, ext);
  }

  /** A stamp-shaped group is the concatenation of its fields. */
  lemma StampSplit(g: string)
    requires |g| == MatchLength - 2
    requires g[8] == 'T' && g[15] == '.' && g[19] == 'Z'
    ensures g == g[0..4] + g[4..6] + g[6..8] + "T" + g[9..11] + g[11..13] + g[13..15] + "."
                 + g[16..19] + "Z"
  {
    var t := g[0..4] + g[4..6] + g[6..8] + "T" + g[9..11] + g[11..13] + g[13..15] + "."
             + g[16..19] + "Z";
    assert |t| == |g|;
    forall k | 0 <= k < |g|
      ensures t[k] == g[k]
    {
    }
  }

  /** A stamp-shaped group whose fields are valid renders back to itself. */
  lemma CompactTextOfFields(g: string)
    requires |g| == MatchLength - 2
    requires AllDigits(g[0..8]) && AllDigits(g[9..15]) && AllDigits(g[16..19])
    requires g[8] == 'T' && g[15] == '.' && g[19] == 'Z'
    requires ValidCivil(CompactFields(g))
    ensures CompactText(CompactFields(g)) == g
  {
    var c := CompactFields(g);
    SliceOfSlice(g, 0, 8, 0, 4);
    SliceOfSlice(g, 0, 8, 4, 6);
    SliceOfSlice(g, 0, 8, 6, 8);
    SliceOfSlice(g, 9, 15, 0, 2);
    SliceOfSlice(g, 9, 15, 2, 4);
    SliceOfSlice(g, 9, 15, 4, 6);
    assert Digits(c.year, 4) == g[0..4] by { DigitsOfParse(g[0..4]); }
    assert Digits(c.month, 2) == g[4..6] by { DigitsOfParse(g[4..6]); }
    assert Digits(c.day, 2) == g[6..8] by { DigitsOfParse(g[6..8]); }
    assert Digits(c.hour, 2) == g[9..11] by { DigitsOfParse(g[9..11]); }
    assert Digits(c.minute, 2) == g[11..13] by { DigitsOfParse(g[11..13]); }
    assert Digits(c.second, 2) == g[13..15] by { DigitsOfParse(g[13..15]); }
    assert Digits(c.micro / 1000, 3) == g[16..19] by {
      assert c.micro / 1000 == ParseNat(g[16..19]);
      DigitsOfParse(g[16..19]);
    }
    StampSplit(g);
  }

  /** Conversely, every time the parser returns is the leftmost stamp of the
      name, rendered back exactly. */
  lemma ParsedIsLeftmostStamp(name: string)
    requires ParseTimestampFromFilename(name).Ok?
    requires ParseTimestampFromFilename(name).value.Some?
    ensures var c := ParseTimestampFromFilename(name).value.value;
      exists i: nat :: MatchesAt(name, i) && (forall j: nat :: 0 <= j < i ==> !MatchesAt(name, j))
                  && name[i + 1..i + 21] == CompactText(c)
  {
    var i := FindMatch(name, 0).value;
    var g := name[i + 1..i + 21];
    SliceOfSlice(name, i + 1, i + 21, 0, 8);
    SliceOfSlice(name, i + 1, i + 21, 9, 15);
    SliceOfSlice(name, i + 1, i + 21, 16, 19);
    CompactTextOfFields(g);
  }

  // ---------------------------------------------------------------------
  // `datetime.isoformat()` of a UTC time, the `timestamp_utc` column
  // ---------------------------------------------------------------------

  const UtcOffsetText: string := "+00:00"

  /** `YYYY-MM-DDTHH:MM:SS`, the part every rendering starts with. */
  function IsoSeconds(c: CivilTime): (s: string)
    requires ValidCivil(c)
    ensures |s| == 19
  {
    Digits(c.year, 4) + "-" + Digits(c.month, 2) + "-" + Digits(c.day, 2) + "T"
    + Digits(c.hour, 2) + ":" + Digits(c.minute, 2) + ":" + Digits(c.second, 2)
  }

  /** `isoformat()` omits the fraction when the microseconds are zero and
      otherwise writes all six digits; the offset of UTC is `+00:00`. */
  function IsoFormat(c: CivilTime): (s: string)
    requires ValidCivil(c)
    ensures |s| == (if c.micro == 0 then 25 else 32)
    ensures s[..19] == IsoSeconds(c) && s[|s| - 6..] == UtcOffsetText
  {
    var frac := if c.micro == 0 then "" else "." + Digits(c.micro, 6);
    var s := IsoSeconds(c) + frac + UtcOffsetText;
    assert s[..19] == IsoSeconds(c);
    assert s[|s| - 6..] == UtcOffsetText;
    s
  }

  /** Reads the seconds part of an ISO rendering back into fields. */
  function IsoFields(s: string, micro: int): Option<CivilTime>
    requires |s| >= 19
  {
    if && AllDigits(s[0..4]) && AllDigits(s[5..7]) && AllDigits(s[8..10])
       && AllDigits(s[11..13]) && AllDigits(s[14..16]) && AllDigits(s[17..19])
    then Some(CivilTime(ParseNat(s[0..4]), ParseNat(s[5..7]), ParseNat(s[8..10]),
                        ParseNat(s[11..13]), ParseNat(s[14..16]), ParseNat(s[17..19]), micro))
    else None
  }

  /** An independent reader of the two shapes `isoformat()` produces for UTC. */
  function ParseIso(s: string): Option<CivilTime> {
    if |s| == 25 && s[19..] == UtcOffsetText then IsoFields(s, 0)
    else if |s| == 32 && s[19] == '.' && AllDigits(s[20..26]) && s[26..] == UtcOffsetText
    then IsoFields(s, ParseNat(s[20..26]))
    else None
  }

  lemma IsoSecondsShape(c: CivilTime)
    requires ValidCivil(c)
    ensures var s := IsoSeconds(c);
      && s[0..4] == Digits(c.year, 4) && s[5..7] == Digits(c.month, 2) && s[8..10] == Digits(c.day, 2)
      && s[11..13] == Digits(c.hour, 2) && s[14..16] == Digits(c.minute, 2) && s[17..19] == Digits(c.second, 2)
  {
  }

  lemma IsoFieldsOfSeconds(c: CivilTime, s: string, micro: int)
    requires ValidCivil(c) && |s| >= 19 && s[..19] == IsoSeconds(c)
    ensures IsoFields(s, micro) == Some(c.(micro := micro))
  {
    IsoSecondsShape(c);
    var t := IsoSeconds(c);
    assert s[0..4] == t[0..4] && s[5..7] == t[5..7] && s[8..10] == t[8..10];
    assert s[11..13] == t[11..13] && s[14..16] == t[14..16] && s[17..19] == t[17..19];
    ParseDigits(c.year, 4);
    ParseDigits(c.month, 2);
    ParseDigits(c.day, 2);
    ParseDigits(c.hour, 2);
    ParseDigits(c.minute, 2);
    ParseDigits(c.second, 2);
  }

  /** The `timestamp_utc` text determines the capture time: reading it back
      gives the time it was rendered from. */
  lemma IsoRoundTrip(c: CivilTime)
    requires ValidCivil(c)
    ensures ParseIso(IsoFormat(c)) == Some(c)
  {
    var s := IsoFormat(c);
    IsoFieldsOfSeconds(c, s, c.micro);
    if c.micro != 0 {
      assert s[19] == '.';
      assert s[20..26] == Digits(c.micro, 6);
      ParseDigits(c.micro, 6);
    }
  }
}
